=== FILE: README.md ===
# Daikin local API integration: a Dafny model

This project models the device-protocol logic of the `daikin_local` Home Assistant integration. The integration talks to a Daikin air conditioner over its local HTTPS API by running `curl`. The model covers five parts:

- **The client** (`DaikinClient`). It builds request URLs with the pre-shared `key` appended to the query. It parses the device's flat `key=value,key=value` body into a map. It fills the six-field parameter set of `set_control_info` from defaults. It applies three different success rules:
  - the getters return the parsed map without looking at `ret`, and raise on failure;
  - `test_connection` and `register_terminal` need a parsed `ret` equal to `OK`;
  - the set path needs the substring `ret=OK` in the raw body and turns every failure inside its `try` into `false`.

  The client also keeps the lifecycle of its temporary OpenSSL configuration file: create it once, forget it on `close`. Every request gets this file before its `try`. So a file that cannot be created raises out of every request, the set path included; only `test_connection` and `register_terminal` turn that exception into `false`.
- **The code tables** of `const.py`: Daikin mode codes and fan-rate codes, their inverse tables, and the temperature limits in half degrees.
- **The read-modify-write changes** made by the climate and switch entities. Each one fetches the control map. It sends back the six control fields: the one it changes (two for an HVAC mode) and the others as fetched, or as a per-method fallback when they are missing. It changes the entity's own attribute only when the device accepts the set.
- **The projections** from fetched maps to what the entities show. These are the climate entity's power, HVAC mode, fan mode, temperatures and device information; the two switches' on/off state; and the four sensors' values, including error-status texts and failure fallbacks.
- **The unique-id scheme** shared by all entities.

The `curl` run is an input, not an effect. Each request is given a `Transport`: the outcome `subprocess.run` would produce (exit status, stdout and stderr, or one of the exceptions it raises), and what `tempfile` would give if a configuration file had to be created (the new file's name, or the `OSError` it raises). Everything else is pure string and map manipulation over `seq<char>` and `map<string, string>`. A Python dict whose insertion order matters (the query parameters) is a `seq` of pairs with distinct keys. A parsed response, whose order no caller observes, is a `map`.

Modules follow the source: `Text` (the Python string operations used), `Optional`, `Codec` (the wire format), `Codes` (`const.py`), `Client` (`daikin_client.py`), `Control` (the six control fields and the merge), `Entity` (what the platforms share), and `Climate`, `Switches` and `Sensors` (the three platforms).

Some behaviour of the code worth stating plainly:
- Every request is one `curl` run with one fixed OpenSSL configuration. There is no fallback to other TLS profiles, no retry and no backoff.
- The getters do not fail when `ret` is missing or not `OK`. They return whatever the body parses to (`Client.GettersIgnoreRet`).
- `set_control_info` does not fetch the current state itself. It fills missing fields from fixed defaults. The read-modify-write happens in the entity methods, each with its own fallbacks (`Climate.ChangesOnEmptyFetch`, `Switches.PowerSends`).
- The set path accepts any body containing the text `ret=OK`, such as `ret=OKAY`, which `test_connection` would reject (`Client.MarkerIsASubstringTest`).

When `pow` is `1`, the climate projection calls `int()` on the `mode` text right after assigning the power; when `pow` is `0` the mode is `off` and `int()` is not called. A `mode` that is not an integer on a powered unit therefore raises part-way through the update: the power has changed, nothing else has, and the error is logged. The model keeps this path (`Climate.Project`, `Climate.Update`). `Climate.UnreadableModeSplitsPowerFromMode` shows that it can leave an entity powered on while its mode still reads `off`. Python's `int()` also refuses decimal text of more than 4300 digits (the default `sys.int_max_str_digits`), so an overlong digit string is unreadable in the same way (`Codes.OverlongModeUnreadable`). The `float()` conversions of `stemp`, `htemp` and `hhum` later in the same update can raise the same way. They are not modelled: the model keeps those readings as text and completes the update (see "Left out").

## Model

| member | source | states |
|---|---|---|
| Text.Strip | custom_components/daikin_local/daikin_client.py:96 | `str.strip()`: the result is no longer than the input and neither starts nor ends with whitespace (Python's `isspace` set) |
| Text.StripSlice | custom_components/daikin_local/daikin_client.py:96 | the stripped text is the slice of the input after its leading whitespace, and everything after that slice is whitespace too |
| Text.StripAround | custom_components/daikin_local/daikin_client.py:96 | whitespace of any kind and length on either side of text whose ends are not whitespace is exactly what `strip` removes |
| Text.Partition | custom_components/daikin_local/daikin_client.py:98 | `split('=', 1)`: the key contains no `=`, and key, `=` and value concatenate back to the segment |
| Text.Split | custom_components/daikin_local/daikin_client.py:96 | `split(',')` yields at least one part and no part contains the separator |
| Text.JoinSplit | custom_components/daikin_local/daikin_client.py:96 | joining the parts of a split with the same separator gives back the original text |
| Text.SplitJoin | custom_components/daikin_local/daikin_client.py:96 | splitting a join of at least one separator-free part gives back the parts (an empty list joins to the empty text, which splits into one empty part) |
| Text.ContainsIff | custom_components/daikin_local/daikin_client.py:147 | the `in` substring test holds exactly when the pattern occurs at some position |
| Text.DecimalRoundTrip | custom_components/daikin_local/daikin_client.py:30 | reading back the decimal rendering of a number gives the number |
| Codec.DictSet | custom_components/daikin_local/daikin_client.py:65 | `params["key"] = ...` keeps the keys distinct, keeps the key order when the key exists and appends it otherwise |
| Codec.DictSetGet | custom_components/daikin_local/daikin_client.py:65 | after the assignment the key holds the new value and every other key keeps its old one |
| Codec.CollectPresence | custom_components/daikin_local/daikin_client.py:95-99 | a key is in the parsed map exactly when some segment defines it (contains `=` after the key); segments without `=` contribute nothing |
| Codec.CollectLastWins | custom_components/daikin_local/daikin_client.py:96-99 | a parsed key maps to the text after the first `=` of the last segment defining it |
| Codec.ParseBodyLastWins | custom_components/daikin_local/daikin_client.py:95-99 | the same presence and last-wins rules, stated for the response parser `ParseBody` on the stripped, comma-split body |
| Codec.ParseResponse | custom_components/daikin_local/daikin_client.py:95-101 | the dictionary-building loop computes the same map as the functional parser |
| Codec.ParseRoundTrip | custom_components/daikin_local/daikin_client.py:95-99 | serialising pairs as `k=v` joined by `,` and parsing the result gives the pairs' map (later duplicates winning), when keys contain no `,` or `=`, values no `,`, and neither end of the body is whitespace |
| Codec.PairsToMapLastWins | custom_components/daikin_local/daikin_client.py:99 | the map built from pairs has exactly their keys, each bound to its last value |
| Codec.ParseRoundTripMap | custom_components/daikin_local/daikin_client.py:95-99 | a map listed in any order of its keys, each key once, serialises and parses back to itself (`ParseBody`), when keys contain no `,` or `=` and do not start with whitespace, and values contain no `,` and do not end with whitespace (values may contain `=`) |
| Codec.QueryRoundTrip | custom_components/daikin_local/daikin_client.py:68-71 | the query `RenderQuery` writes, `k=v&...`, reads back to the same ordered pairs when there is at least one pair, keys and values contain no `&`, and keys no `=` (an empty list renders as the empty query, which reads back as one empty pair) |
| Codec.RequestUrl | custom_components/daikin_local/daikin_client.py:60-74 | the URL is base, endpoint, `?` and the unencoded query of the parameters with `key` assigned, and that query's `key` is the client's key, overriding any value the caller passed |
| Codes.ModeTablesInverse | custom_components/daikin_local/const.py:30-38 | the mode table has codes 0 to 4, is injective, and `HA_MODE_TO_DAIKIN` is its exact inverse |
| Codes.OffHasNoModeCode | custom_components/daikin_local/const.py:22-38 | `off` has no Daikin code in either table |
| Codes.FanTablesInverse | custom_components/daikin_local/const.py:49-58 | the fan table has codes `A`, `B`, `3`–`6`, is injective, and `HA_FAN_TO_DAIKIN` is its exact inverse |
| Codes.TemperatureRange | custom_components/daikin_local/const.py:61-63 | in half degrees the minimum is below the maximum and the range is a whole number of steps |
| Codes.ParseIntDigits | custom_components/daikin_local/climate.py:141 | `int` (`Codes.ParseInt`) reads a plain digit string of at most 4300 digits as its decimal value and raises on a longer one |
| Codes.ParseIntRejects | custom_components/daikin_local/climate.py:141 | `int` raises on text without a digit |
| Codes.ParseIntRoundTrip | custom_components/daikin_local/climate.py:141 | `int` reads back every rendered number of at most 4300 digits, bare or with any whitespace before and after it, and raises on a longer one |
| Codes.ParseIntSigned | custom_components/daikin_local/climate.py:141 | `int` reads a minus sign followed by at most 4300 digits as the negated value and raises on more digits; the sign does not count |
| Codes.ParseIntPadded | custom_components/daikin_local/climate.py:141 | `int` ignores whitespace of any kind and length before and after a digit string, reading it when it has at most 4300 digits and raising otherwise; the whitespace does not count |
| Codes.HvacModeOf | custom_components/daikin_local/climate.py:139-142 | the shown mode is the table's mode for an integer code in the table, `auto` for any other integer, never `off`, and none exactly when `int` raises, the 4300-digit limit included |
| Codes.OverlongModeUnreadable | custom_components/daikin_local/climate.py:139-142 | a `mode` of more than 4300 digits is unreadable, whatever its value |
| Codes.DaikinModeFor | custom_components/daikin_local/climate.py:218 | the sent code is the decimal table code of a known mode and `1` for any other mode, so always one of `0`–`4` |
| Codes.FanModeOf | custom_components/daikin_local/climate.py:147-148 | an unknown `f_rate` shows as `auto`; known codes show their table entry |
| Codes.FanRateFor | custom_components/daikin_local/climate.py:242 | an unknown fan mode sends `A`; known modes send their table code |
| Codes.HvacModeRoundTrip | custom_components/daikin_local/climate.py:139-142 | sending a known HVAC mode and reading the code back shows the same mode |
| Codes.ModeCodeRoundTrip | custom_components/daikin_local/const.py:30-38 | reading a canonical code and sending the shown mode back sends the same code |
| Codes.FanRoundTrip | custom_components/daikin_local/const.py:49-58 | fan modes and fan codes round-trip in both directions |
| Client.NewClient | custom_components/daikin_local/daikin_client.py:24-31 | a new client has no configuration file and base URL `https://ip:port`, port 443 by default |
| Client.SslConfig | custom_components/daikin_local/daikin_client.py:34-56 | an existing configuration file is reused unchanged; otherwise a created file is remembered, and a failed creation raises its error and remembers nothing; nothing else about the client changes |
| Client.Close | custom_components/daikin_local/daikin_client.py:215-222 | after `close` no configuration file is remembered and nothing else changes |
| Client.CloseIdempotent | custom_components/daikin_local/daikin_client.py:215-222 | closing twice is the same as closing once |
| Client.SslConfigCreatedOnce | custom_components/daikin_local/daikin_client.py:52-56 | once a file is remembered it is not created again: later requests reuse it and cannot fail to create one |
| Client.Prepare | custom_components/daikin_local/daikin_client.py:60-89 | a request raises before its `try` exactly when no file is remembered and creating one fails; otherwise its URL carries the parameters and the key, its headers are `X-Daikin-uuid` with the client's uuid and the fixed user agent, its `OPENSSL_CONF` is the configuration file, and its timeout is 10 seconds |
| Client.MakeRequest | custom_components/daikin_local/daikin_client.py:58-109 | a body is parsed exactly when the file is available and curl exits 0; a failed file creation raises its error with nothing sent; a non-zero exit raises `curl failed: ` with stderr, a timeout `Request timed out`, a missing curl `curl command not found`, and any other exception propagates with its message |
| Client.MakeSetRequest | custom_components/daikin_local/daikin_client.py:111-157 | a failed file creation, which happens before the `try`, raises with nothing sent; otherwise the set path returns true exactly when curl exits 0 and `ret=OK` occurs somewhere in stdout, and every other failure is `false` |
| Client.TestConnection | custom_components/daikin_local/daikin_client.py:159-166 | true exactly when the file is available, the basic-info run exits 0 and the parsed `ret` is `OK`; every failure, a failed file creation included, is `false` |
| Client.RegisterTerminal | custom_components/daikin_local/daikin_client.py:168-175 | the same rule against the registration endpoint |
| Client.GetInfo | custom_components/daikin_local/daikin_client.py:177-187 | the getters return the parsed body exactly when the file is available and curl exits 0, and raise otherwise; after a successful fetch the file is remembered |
| Client.GettersIgnoreRet | custom_components/daikin_local/daikin_client.py:177-187 | a body with `ret=PARAM NG` is still returned as a parsed map, `ret` included |
| Client.SetParams | custom_components/daikin_local/daikin_client.py:189-211 | the parameters are exactly `pow, mode, stemp, shum, f_rate, f_dir` in that order, each the caller's value when given and its default otherwise |
| Client.SetControlInfo | custom_components/daikin_local/daikin_client.py:189-213 | `set_control_info` sends those six parameters; it raises only when the file cannot be created, and otherwise returns true exactly when the set path accepts |
| Client.SetParamsDropsExtras | custom_components/daikin_local/daikin_client.py:195-197 | keyword arguments other than the six fields make no difference |
| Client.SetParamsDefaults | custom_components/daikin_local/daikin_client.py:199-211 | with no arguments the fields are `1`, `1`, `22.0`, `0`, `A`, `0` |
| Client.SetQueryOrder | custom_components/daikin_local/daikin_client.py:116-125 | the set path makes one run when the file is available and none otherwise, and that run's URL query reads back as the six fields in order followed by `key`, when no field value and not the client's key contains `&` |
| Client.SetEntryAppends | custom_components/daikin_local/daikin_client.py:116 | assigning a key not yet present appends it at the end |
| Client.MarkerIsASubstringTest | custom_components/daikin_local/daikin_client.py:147 | a body `ret=OKAY` is accepted by the set path while `test_connection` rejects it |
| Client.CreationFailureEscapesSetPath | custom_components/daikin_local/daikin_client.py:125-166 | with no file remembered and creation failing, `set_control_info` raises with nothing sent while `test_connection` returns `false` |
| Control.KwargsSendAsGiven | custom_components/daikin_local/daikin_client.py:195-197 | six explicit fields are sent as given, in the fixed order |
| Control.Observed | custom_components/daikin_local/climate.py:187-192 | a fetched map with all six fields is read as those six values |
| Control.CoversEachField | custom_components/daikin_local/climate.py:187-192 | a change's fallbacks and overrides together give every field a value |
| Control.Merge | custom_components/daikin_local/climate.py:187-192 | an overridden field takes the override; any other field takes the fetched value when present and the method's fallback otherwise |
| Control.MergeChangesOnlyTargets | custom_components/daikin_local/switch.py:83-91 | on a complete fetch only the overridden fields differ from what was read, and they take the overrides |
| Control.EmptyMergeIsNoOp | custom_components/daikin_local/switch.py:83-91 | a merge without overrides resends the fetched six fields unchanged |
| Control.SetRequest | custom_components/daikin_local/climate.py:185-193 | a merged setting is sent as the six keyword arguments in the fixed order; it raises only when the file cannot be created and is otherwise accepted exactly when the set path accepts |
| Control.ReadModifyWrite | custom_components/daikin_local/climate.py:179-195 | the control map is fetched first; a failed fetch raises and sends nothing more; otherwise the merge is sent and its acceptance reported; an exception escapes exactly when the fetch raised, since a successful fetch leaves the file in place for the set |
| Control.SetRequestQuery | custom_components/daikin_local/daikin_client.py:116-125 | the set URL is the fixed field order plus `key`, and under separator-free values its query reads back to exactly those pairs |
| Entity.UniqueIdInjective | custom_components/daikin_local/sensor.py:44 | within one entry, `entry_id + "_" + kind` identifies the kind |
| Entity.UniqueIdsDistinct | custom_components/daikin_local/switch.py:41 | the seven entities of one entry have pairwise distinct unique ids |
| Entity.Change | custom_components/daikin_local/switch.py:76-95 | a change fetches, merges and sends; the state moves to the new value only when the set is accepted; a fetch failure propagates and keeps the state |
| Entity.ChangeWithoutConfigFile | custom_components/daikin_local/switch.py:78-81 | when the client has no file and creating one fails, a change raises before sending anything and keeps its state |
| Entity.Poll | custom_components/daikin_local/switch.py:60-74 | a poll's state is the projection of the fetched map, or the fixed failure value with the error logged |
| Climate.InitialConsistent | custom_components/daikin_local/climate.py:99-116 | the initial attributes are powered off with mode `off` |
| Climate.Project | custom_components/daikin_local/climate.py:137-168 | with `pow` present the power follows it and the mode is `off` when off and the mapped mode otherwise; without `pow` neither changes; every other attribute is refreshed only from its present field; an unreadable mode changes the power alone; projection keeps power and mode in agreement whenever it completes |
| Climate.ProjectIdempotent | custom_components/daikin_local/climate.py:137-168 | projecting the same maps twice is the same as projecting once |
| Climate.UnreadableModeSplitsPowerFromMode | custom_components/daikin_local/climate.py:137-142 | `pow=1,mode=x` leaves an initial entity powered on with mode `off` |
| Climate.Update | custom_components/daikin_local/climate.py:118-171 | a failure of any of the three fetches, a failed file creation included, is logged and leaves every attribute unchanged; with all three the state is the projection; an unreadable mode is logged as the `int` error; a completed update keeps power and mode in agreement |
| Climate.HvacOverrides | custom_components/daikin_local/climate.py:199-233 | the HVAC-mode change always overrides `pow` (`1` exactly when the mode is not `off`) and overrides `mode` only when turning on, with a code in `0`–`4` that a known mode reads back as itself; the branch's fallbacks supply every other field |
| Climate.SetTemperature | custom_components/daikin_local/climate.py:173-197 | without a temperature nothing is fetched or sent; otherwise `stemp` is sent with the other fields carried over and the target temperature changes only on acceptance |
| Climate.SetHvacMode | custom_components/daikin_local/climate.py:199-238 | `off` sends `pow=0` with mode fallback `0`; any other mode sends `pow=1` and its code; on acceptance the mode is shown and the power is on exactly when it is not `off` |
| Climate.SetFanMode | custom_components/daikin_local/climate.py:240-261 | the mode's `f_rate` is sent with the other fields carried over; on acceptance the fan mode is shown |
| Climate.ChangesPreserveConsistency | custom_components/daikin_local/climate.py:195-197 | every change, accepted or not, keeps power and mode in agreement |
| Climate.HvacModeSends | custom_components/daikin_local/climate.py:207-233 | what the HVAC-mode change sends: `pow` and `mode` as the mode requires and the rest as fetched, so that a known mode is read back as itself |
| Climate.ChangesOnEmptyFetch | custom_components/daikin_local/climate.py:185-257 | with nothing fetched each change falls back to its own defaults |
| Climate.ChangesTouchOnlyTargets | custom_components/daikin_local/climate.py:185-257 | on a complete fetch each change resends every field it does not target verbatim |
| Climate.TemperatureScenario | custom_components/daikin_local/climate.py:185-193 | setting 24.0 on a unit reporting `pow=1,mode=1,stemp=22.0,shum=0,f_rate=A,f_dir=0` sends the same six fields with only `stemp` replaced |
| Switches.SwitchUpdate | custom_components/daikin_local/switch.py:60-74 | a switch is on exactly when its field was fetched and equals `1`; a failed fetch is logged and reads as off |
| Switches.PowerUpdate | custom_components/daikin_local/switch.py:60-74 | the power switch follows `pow`; missing or failed reads as off |
| Switches.FanDirectionUpdate | custom_components/daikin_local/switch.py:128-142 | the fan-direction switch follows `f_dir`; missing or failed reads as off |
| Switches.PowerTurnOn | custom_components/daikin_local/switch.py:76-95 | sends `pow=1` with the rest carried over and turns on only on acceptance |
| Switches.PowerTurnOff | custom_components/daikin_local/switch.py:97-116 | sends `pow=0` (mode fallback `0`) and turns off only on acceptance |
| Switches.FanDirectionTurnOn | custom_components/daikin_local/switch.py:144-163 | sends `f_dir=1` with `pow` falling back to `1` and turns on only on acceptance |
| Switches.FanDirectionTurnOff | custom_components/daikin_local/switch.py:165-184 | sends `f_dir=0` and turns off only on acceptance |
| Switches.PowerSends | custom_components/daikin_local/switch.py:83-112 | the power switch sends its `pow` and the other five as fetched or their fallbacks |
| Switches.DirectionSends | custom_components/daikin_local/switch.py:151-180 | the direction switch sends its `f_dir` and the other five as fetched or their fallbacks |
| Switches.SwitchesTouchOnlyTheirField | custom_components/daikin_local/switch.py:83-91 | on a complete fetch each switch resends five fields verbatim and changes only its own |
| Switches.TurnMovesOnlyOnAcceptance | custom_components/daikin_local/switch.py:93-95 | `is_on` moves only to the requested value and only when the set is accepted |
| Switches.SwitchesAgreeWithClimate | custom_components/daikin_local/switch.py:67-68 | on the same control map the power switch agrees with the climate power, and, unless the mode is unreadable, the direction switch with the climate fan direction |
| Sensors.TemperatureUpdate | custom_components/daikin_local/sensor.py:66-80 | `htemp` when fetched and present; nothing when missing or on a logged failure |
| Sensors.HumidityUpdate | custom_components/daikin_local/sensor.py:95-109 | `hhum` when fetched and present; nothing when missing or on a logged failure |
| Sensors.StatusOf | custom_components/daikin_local/sensor.py:127-134 | no `err` is unknown, `0` is no error, anything else is that error code |
| Sensors.DisplayRoundTrip | custom_components/daikin_local/sensor.py:127-138 | the shown texts `No Error`, `Error Code: c`, `Unknown` and `Connection Error` can be read back to the status they came from |
| Sensors.DisplayInjective | custom_components/daikin_local/sensor.py:127-138 | different statuses never show the same text |
| Sensors.ErrorStatusUpdate | custom_components/daikin_local/sensor.py:120-138 | a fetched map shows its status's text; a failure shows `Connection Error`, and only a failure does |
| Sensors.FirmwareUpdate | custom_components/daikin_local/sensor.py:149-163 | `ver` verbatim when fetched and present; `Unknown` when missing or on failure |
| Sensors.SensorsAgreeWithClimate | custom_components/daikin_local/sensor.py:73-74 | on the same maps, when the climate projection gets past the `mode` conversion, the sensors show what the climate entity refreshes from the same fields |

## Left out

- Running `curl`, the environment copy, `OPENSSL_CONF` and the contents of the temporary file are I/O. The outcome of each run and the name of a new file are inputs. So are the `curl` flags. The timeout of 10 seconds is recorded in each run; when it expires is part of the outcome.
- Deleting the configuration file in `close` (and ignoring an `OSError` from it) is I/O. `Client.Close` models only forgetting the file.
- Logging is not modelled. An error an entity logs and swallows appears as the `Logged` completion with the message. Errors the client logs and then swallows show in the model only in its result: `false` from the set path, `test_connection` and `register_terminal`.
- Home Assistant plumbing is left out: `async_setup_entry`, executor jobs, `async_write_ha_state`, device-info dictionaries, entity names built with `str.title()`, `__init__.py`, the config flow, and the services. These are framework behaviour, not device protocol.
- Climate.Project keeps temperatures and humidities as the device's text. `float(...)` and `str(temperature)` are floating-point conversions. A `ValueError` from one of them is not modelled.
- Climate.Update completes when `stemp`, `htemp` or `hhum` is not a number. In the source `float()` raises there, so the update stops part-way and logs the error: the control attributes before the failing field are assigned, and the later ones (`name`, `ver`, `err` among them) are not. Units without a humidity sensor commonly report `hhum=-`, so this path is common. Python's `float` syntax (exponents, `inf`, `nan`, underscores) is not modelled.
- Sensors.TemperatureUpdate shows the `htemp` text instead of `float(htemp)`. A non-numeric reading, which the source logs and shows as nothing, shows as its text here.
- Sensors.HumidityUpdate shows the `hhum` text instead of `float(hhum)`. A reading such as `-`, which the source logs and shows as nothing, shows as its text here.
- Codes.ParseInt accepts ASCII digits, one sign and surrounding whitespace, with at most 4300 digits. It does not accept the underscores between digits or the non-ASCII decimal digits that Python's `int` also accepts. The digit limit is Python's default; a process that changes `sys.int_max_str_digits` is not modelled.
- Client.NewClient renders a port of any length in decimal. Python's `str` of an integer also refuses more than 4300 digits, which no port number reaches.
- Climate.IntErrorMessage quotes the text with plain single quotes. Python writes `repr(text)`, which escapes and may choose double quotes. For a run of more than 4300 digits Python's message is instead `Exceeds the limit (4300 digits) for integer string conversion`, with the digit count; the model logs the `invalid literal` message there too.
- Concurrency is not modelled. The window between the fetch and the set, split across two executor jobs, is not protected by any lock in the source either.
- The files under `scripts/` are scripts that probe a live device and write configuration files, outside the integration.

=== FILE: client.dfy ===
/**
 * The device client (custom_components/daikin_local/daikin_client.py). The `curl`
 * subprocess and the temporary file are inputs: each request is given the outcome curl
 * produces for it and what creating the OpenSSL configuration file would give if one had
 * to be created.
 */
module Client {
  import opened Optional
  import opened Text
  import opened Codec
  import opened Codes

  /** A temporary file name; `tempfile` never produces an empty one. */
  type ConfigPath = p: string | p != "" witness "/tmp/daikin.conf"

  /** What `subprocess.run` of curl gives back, or the exception it raises. */
  datatype CurlOutcome =
    | Exited(returnCode: int, stdout: string, stderr: string)
    | TimedOut        // subprocess.TimeoutExpired after the run's `timeoutSeconds`
    | NotInstalled    // FileNotFoundError: no curl binary
    | Crashed(message: string)  // any other exception, with its message

  /** What `tempfile.NamedTemporaryFile` gives: the new file's name, or the `OSError` it raises. */
  datatype Creation = Created(path: ConfigPath) | CreateFailed(message: string)

  /** The inputs one request consumes. */
  datatype Transport = Transport(newConfig: Creation, curl: CurlOutcome)

  /**
   * One curl run: the parts of its command line the device can observe, the configuration
   * file in its environment, and the seconds `subprocess.run` waits before giving up.
   */
  datatype Invocation = Invocation(url: string, uuidHeader: string, agentHeader: string, opensslConf: ConfigPath, timeoutSeconds: nat)

  /** A value, or the message of the exception raised instead. */
  datatype Outcome<+T> = Ok(value: T) | Raised(message: string)

  /** A getter's outcome: the parsed body, or the exception it raises. */
  type Fetch = Outcome<Response>

  /**
   * One request: the client afterwards, the curl runs made (none when the configuration
   * file could not be created, one otherwise), and the result.
   */
  datatype Exchange<+T> = Exchange(client: Client, sent: seq<Invocation>, result: T)

  const UserAgentHeader := "User-Agent: HomeAssistant-DaikinLocal/1.0"

  /** The status marker the set path searches the raw body for. */
  const RetOk := "ret=OK"

  datatype Client = Client(ipAddress: string, uuid: string, key: string, port: nat, sslConfig: Option<ConfigPath>)
  {
    /** `f"https://{ip_address}:{port}"`. */
    function BaseUrl(): string {
      "https://" + ipAddress + ":" + DecimalText(port)
    }
  }

  /** `DaikinClient(ip_address, uuid, key, port)`: no configuration file exists yet. */
  function NewClient(ipAddress: string, uuid: string, key: string, port: nat := DefaultPort): (c: Client)
    ensures c.sslConfig == None
    ensures c.BaseUrl() == "https://" + ipAddress + ":" + DecimalText(port)
  {
    Client(ipAddress, uuid, key, port, None)
  }

  // ---------------------------------------------------------------------------
  // Lifecycle of the temporary OpenSSL configuration (daikin_client.py:52-56, 215-222)
  // ---------------------------------------------------------------------------

  /**
   * A request gets past `_get_ssl_config`: a configuration file is remembered already or is
   * created now.
   */
  predicate Ready(c: Client, t: Transport) {
    c.sslConfig.Some? || t.newConfig.Created?
  }

  /** curl ran and exited with code 0. */
  predicate CurlOk(curl: CurlOutcome) {
    curl.Exited? && curl.returnCode == 0
  }

  /** A getter returns a map: the request reaches curl and curl exits with code 0. */
  predicate Fetched(c: Client, t: Transport) {
    Ready(c, t) && CurlOk(t.curl)
  }

  /**
   * `_get_ssl_config`: reuse the configuration file if there is one, otherwise create it
   * and remember it. A failed creation raises, and nothing is remembered.
   */
  function SslConfig(c: Client, creation: Creation): (r: Outcome<(Client, ConfigPath)>)
    ensures r.Ok? <==> c.sslConfig.Some? || creation.Created?
    ensures r.Ok? ==> r.value.0.sslConfig == Some(r.value.1)
    ensures r.Ok? ==> r.value.0 == c.(sslConfig := r.value.0.sslConfig)
    ensures c.sslConfig.Some? ==> r == Ok((c, c.sslConfig.value))
    ensures c.sslConfig.None? && creation.Created? ==> r.value.1 == creation.path
    ensures r.Raised? ==> r.message == creation.message
  {
    match c.sslConfig
    case Some(path) => Ok((c, path))
    case None =>
      match creation
      case Created(path) => Ok((c.(sslConfig := Some(path)), path))
      case CreateFailed(message) => Raised(message)
  }

  /** `close`: forget (and delete) the configuration file if there is one. */
  function Close(c: Client): (r: Client)
    ensures r.sslConfig == None
    ensures r == c.(sslConfig := None)
  {
    if c.sslConfig.Some? then c.(sslConfig := None) else c
  }

  /** Closing twice is the same as closing once. */
  lemma CloseIdempotent(c: Client)
    ensures Close(Close(c)) == Close(c)
    ensures Close(Close(c)).sslConfig == None
  {
  }

  /**
   * Once a configuration file is remembered, later requests keep using it and cannot fail
   * to create one.
   */
  lemma SslConfigCreatedOnce(c: Client, first: Creation, later: Creation)
    ensures SslConfig(c, first).Ok? ==>
      SslConfig(SslConfig(c, first).value.0, later) == SslConfig(c, first)
  {
  }

  // ---------------------------------------------------------------------------
  // Requests (daikin_client.py:58-157)
  // ---------------------------------------------------------------------------

  /**
   * What a request does before its `try`: build the URL and get the configuration file. The
   * second step raises when the file cannot be created.
   */
  function Prepare(c: Client, endpoint: string, params: Pairs, t: Transport): (r: Outcome<(Client, Invocation)>)
    requires DistinctKeys(params)
    ensures r.Ok? <==> Ready(c, t)
    ensures r.Raised? ==> r.message == t.newConfig.message
    ensures r.Ok? ==> Ok((r.value.0, r.value.1.opensslConf)) == SslConfig(c, t.newConfig)
    ensures r.Ok? ==> r.value.1.url == c.BaseUrl() + endpoint + "?" + RenderQuery(DictSet(params, "key", c.key))
    ensures r.Ok? ==> r.value.1.uuidHeader == "X-Daikin-uuid: " + c.uuid
    ensures r.Ok? ==> r.value.1.agentHeader == UserAgentHeader
    ensures r.Ok? ==> r.value.1.timeoutSeconds == DefaultTimeoutSeconds
  {
    var url := RequestUrl(c.BaseUrl(), endpoint, params, c.key);
    match SslConfig(c, t.newConfig)
    case Ok((c', path)) => Ok((c', Invocation(url, "X-Daikin-uuid: " + c.uuid, UserAgentHeader, path, DefaultTimeoutSeconds)))
    case Raised(message) => Raised(message)
  }

  /**
   * The client afterwards and the curl runs of one request: the prepared run, or, when the
   * configuration file could not be created, the client unchanged and no run.
   */
  function Issued(c: Client, endpoint: string, params: Pairs, t: Transport): (r: (Client, seq<Invocation>))
    requires DistinctKeys(params)
    ensures Ready(c, t) ==> r.0.sslConfig.Some? && |r.1| == 1
    ensures Ready(c, t) ==> r == (Prepare(c, endpoint, params, t).value.0, [Prepare(c, endpoint, params, t).value.1])
    ensures !Ready(c, t) ==> r == (c, [])
  {
    match Prepare(c, endpoint, params, t)
    case Ok((c', run)) => (c', [run])
    case Raised(_) => (c, [])
  }

  /**
   * `_make_request`: parse the body of a successful run, raise on every kind of failure,
   * including a configuration file that cannot be created.
   */
  function MakeRequest(c: Client, endpoint: string, params: Pairs, t: Transport): (e: Exchange<Fetch>)
    requires DistinctKeys(params)
    ensures (e.client, e.sent) == Issued(c, endpoint, params, t)
    ensures e.result.Ok? <==> Fetched(c, t)
    ensures e.result.Ok? ==> e.result.value == ParseBody(t.curl.stdout)
    ensures !Ready(c, t) ==> e.result == Raised(t.newConfig.message)
    ensures Ready(c, t) && t.curl.Exited? && t.curl.returnCode != 0 ==> e.result == Raised("curl failed: " + t.curl.stderr)
    ensures Ready(c, t) && t.curl.TimedOut? ==> e.result == Raised("Request timed out")
    ensures Ready(c, t) && t.curl.NotInstalled? ==> e.result == Raised("curl command not found")
    ensures Ready(c, t) && t.curl.Crashed? ==> e.result == Raised(t.curl.message)
  {
    var (c', sent) := Issued(c, endpoint, params, t);
    var result :=
      if !Ready(c, t) then Raised(t.newConfig.message)
      else match t.curl
        case Exited(code, stdout, stderr) =>
          if code != 0 then Raised("curl failed: " + stderr) else Ok(ParseBody(stdout))
        case TimedOut => Raised("Request timed out")
        case NotInstalled => Raised("curl command not found")
        case Crashed(message) => Raised(message);
    Exchange(c', sent, result)
  }

  /** The set path accepts a run exactly when curl exits 0 and the raw body contains `ret=OK`. */
  predicate SetAccepted(curl: CurlOutcome) {
    curl.Exited? && curl.returnCode == 0 && Contains(curl.stdout, RetOk)
  }

  /**
   * `_make_set_request`: every failure inside its `try` becomes `false`; a configuration
   * file that cannot be created raises, since it is obtained before the `try`.
   */
  function MakeSetRequest(c: Client, endpoint: string, params: Pairs, t: Transport): (e: Exchange<Outcome<bool>>)
    requires DistinctKeys(params)
    ensures (e.client, e.sent) == Issued(c, endpoint, params, t)
    ensures !Ready(c, t) ==> e.result == Raised(t.newConfig.message)
    ensures Ready(c, t) ==> e.result.Ok?
    ensures e.result.Ok? ==> (e.result.value <==> CurlOk(t.curl) && exists i :: OccursAt(t.curl.stdout, RetOk, i))
  {
    var (c', sent) := Issued(c, endpoint, params, t);
    var result :=
      if !Ready(c, t) then Raised(t.newConfig.message)
      else match t.curl
        case Exited(code, stdout, _) => Ok(code == 0 && Contains(stdout, RetOk))
        case _ => Ok(false);
    assert t.curl.Exited? ==> (Contains(t.curl.stdout, RetOk) <==> exists i :: OccursAt(t.curl.stdout, RetOk, i)) by {
      if t.curl.Exited? { ContainsIff(t.curl.stdout, RetOk); }
    }
    Exchange(c', sent, result)
  }

  /** The status check of `test_connection` and `register_terminal`: a parsed `ret` equal to `OK`. */
  predicate RetIsOk(r: Fetch) {
    r.Ok? && "ret" in r.value && r.value["ret"] == "OK"
  }

  /**
   * `test_connection`: true exactly when the basic-info body parses with `ret` equal to `OK`;
   * every exception of `_make_request`, a failed file creation included, is `false`.
   */
  function TestConnection(c: Client, t: Transport): (e: Exchange<bool>)
    ensures (e.client, e.sent) == Issued(c, EndpointBasicInfo, [], t)
    ensures e.result <==> Fetched(c, t) && Find(ParseBody(t.curl.stdout), "ret") == Some("OK")
  {
    var e := MakeRequest(c, EndpointBasicInfo, [], t);
    Exchange(e.client, e.sent, RetIsOk(e.result))
  }

  /** `register_terminal`: the same check against the registration endpoint. */
  function RegisterTerminal(c: Client, t: Transport): (e: Exchange<bool>)
    ensures (e.client, e.sent) == Issued(c, EndpointRegisterTerminal, [], t)
    ensures e.result <==> Fetched(c, t) && Find(ParseBody(t.curl.stdout), "ret") == Some("OK")
  {
    var e := MakeRequest(c, EndpointRegisterTerminal, [], t);
    Exchange(e.client, e.sent, RetIsOk(e.result))
  }

  /** `get_basic_info`, `get_control_info` and `get_sensor_info`: the parsed body as is. */
  function GetInfo(c: Client, endpoint: string, t: Transport): (e: Exchange<Fetch>)
    requires endpoint in {EndpointBasicInfo, EndpointControlInfo, EndpointSensorInfo}
    ensures (e.client, e.sent) == Issued(c, endpoint, [], t)
    ensures e.result.Ok? <==> Fetched(c, t)
    ensures e.result.Ok? ==> e.result.value == ParseBody(t.curl.stdout) && e.client.sslConfig.Some?
    ensures e.result.Raised? && !Ready(c, t) ==> e.result.message == t.newConfig.message
  {
    MakeRequest(c, endpoint, [], t)
  }

  function GetBasicInfo(c: Client, t: Transport): Exchange<Fetch> {
    GetInfo(c, EndpointBasicInfo, t)
  }

  function GetControlInfo(c: Client, t: Transport): Exchange<Fetch> {
    GetInfo(c, EndpointControlInfo, t)
  }

  function GetSensorInfo(c: Client, t: Transport): Exchange<Fetch> {
    GetInfo(c, EndpointSensorInfo, t)
  }

  /** The getters do not look at `ret`: a failing status still parses. */
  lemma GettersIgnoreRet(c: Client, t: Transport)
    requires t.curl == Exited(0, "ret=PARAM NG,pow=1", "")
    ensures Ready(c, t) ==> GetControlInfo(c, t).result == Ok(map["ret" := "PARAM NG", "pow" := "1"])
  {
    ParamNgBody();
  }

  lemma ParamNgBody()
    ensures ParseBody("ret=PARAM NG,pow=1") == map["ret" := "PARAM NG", "pow" := "1"]
  {
    var pairs := [("ret", "PARAM NG"), ("pow", "1")];
    assert Item("ret", "PARAM NG") == "ret=PARAM NG";
    assert Item("pow", "1") == "pow=1";
    assert Items(pairs) == ["ret=PARAM NG", "pow=1"];
    assert Join(["pow=1"], ',') == "pow=1";
    assert Serialize(pairs) == "ret=PARAM NG,pow=1";
    ParseRoundTrip(pairs);
    assert PairsToMap(pairs[..1]) == map["ret" := "PARAM NG"];
  }

  // ---------------------------------------------------------------------------
  // set_control_info (daikin_client.py:189-213)
  // ---------------------------------------------------------------------------

  /** The six fields the set endpoint requires, in the order they are sent. */
  const RequiredParams: seq<string> := ["pow", "mode", "stemp", "shum", "f_rate", "f_dir"]

  /** What `set_control_info` sends for a field the caller left out. */
  const ParamDefaults: seq<string> := ["1", "1", "22.0", "0", "A", "0"]

  /**
   * The ordered parameters `set_control_info` builds from its keyword arguments: each of
   * the six required fields from the caller when given, from the default otherwise; any
   * other keyword is dropped.
   */
  function SetParams(kwargs: map<string, string>): (ps: Pairs)
    ensures KeysOf(ps) == RequiredParams
    ensures forall i :: 0 <= i < 6 ==> ps[i].1 == Lookup(kwargs, RequiredParams[i], ParamDefaults[i])
  {
    seq(6, i requires 0 <= i < 6 => (RequiredParams[i], Lookup(kwargs, RequiredParams[i], ParamDefaults[i])))
  }

  /**
   * `set_control_info`: always sends the full six-field set and reports a failed run as
   * `false`; only a configuration file that cannot be created raises.
   */
  function SetControlInfo(c: Client, kwargs: map<string, string>, t: Transport): (e: Exchange<Outcome<bool>>)
    ensures (e.client, e.sent) == Issued(c, EndpointSetControl, SetParams(kwargs), t)
    ensures e.result.Raised? <==> !Ready(c, t)
    ensures e.result.Raised? ==> e.result.message == t.newConfig.message
    ensures e.result == Ok(true) <==> Ready(c, t) && SetAccepted(t.curl)
  {
    var ps := SetParams(kwargs);
    assert DistinctKeys(ps) by {
      assert KeysOf(ps) == ["pow", "mode", "stemp", "shum", "f_rate", "f_dir"];
    }
    var e := MakeSetRequest(c, EndpointSetControl, ps, t);
    assert t.curl.Exited? ==> (Contains(t.curl.stdout, RetOk) <==> exists i :: OccursAt(t.curl.stdout, RetOk, i)) by {
      if t.curl.Exited? { ContainsIff(t.curl.stdout, RetOk); }
    }
    e
  }

  /** Keyword arguments other than the six required fields make no difference. */
  lemma SetParamsDropsExtras(kwargs: map<string, string>)
    ensures SetParams(kwargs) == SetParams(map k | k in kwargs && k in RequiredParams :: kwargs[k])
  {
  }

  /** With no keyword arguments every field takes its default. */
  lemma SetParamsDefaults()
    ensures SetParams(map[]) ==
      [("pow", "1"), ("mode", "1"), ("stemp", "22.0"), ("shum", "0"), ("f_rate", "A"), ("f_dir", "0")]
  {
  }

  /**
   * The set URL carries the six fields in order and then the key: read back from the query
   * they are exactly `pow, mode, stemp, shum, f_rate, f_dir, key`.
   */
  lemma SetQueryOrder(c: Client, kwargs: map<string, string>, t: Transport)
    requires QuerySafe(SetParams(kwargs) + [("key", c.key)])
    ensures |SetControlInfo(c, kwargs, t).sent| == (if Ready(c, t) then 1 else 0)
    ensures forall run <- SetControlInfo(c, kwargs, t).sent ::
            exists q :: run.url == c.BaseUrl() + EndpointSetControl + "?" + q &&
                        ReadQuery(q) == SetParams(kwargs) + [("key", c.key)]
  {
    var ps := SetParams(kwargs);
    assert "key" !in KeysOf(ps) by {
      assert KeysOf(ps) == ["pow", "mode", "stemp", "shum", "f_rate", "f_dir"];
    }
    assert DistinctKeys(ps) by {
      assert KeysOf(ps) == ["pow", "mode", "stemp", "shum", "f_rate", "f_dir"];
    }
    var full := DictSet(ps, "key", c.key);
    assert full == ps + [("key", c.key)] by {
      SetEntryAppends(ps, "key", c.key);
    }
    QueryRoundTrip(full);
    forall run <- SetControlInfo(c, kwargs, t).sent
      ensures exists q :: run.url == c.BaseUrl() + EndpointSetControl + "?" + q &&
                          ReadQuery(q) == ps + [("key", c.key)]
    {
      assert run.url == c.BaseUrl() + EndpointSetControl + "?" + RenderQuery(full);
    }
  }

  /** Assigning a new key appends it at the end. */
  lemma {:induction false} SetEntryAppends(ps: Pairs, k: string, v: string)
    requires k !in KeysOf(ps)
    ensures SetEntry(ps, k, v) == ps + [(k, v)]
  {
    if |ps| > 0 {
      assert KeysOf(ps) == [ps[0].0] + KeysOf(ps[1..]);
      assert ps[0].0 != k && k !in KeysOf(ps[1..]);
      SetEntryAppends(ps[1..], k, v);
      assert SetEntry(ps, k, v) == [ps[0]] + (ps[1..] + [(k, v)]);
      assert ps == [ps[0]] + ps[1..];
    }
  }

  /**
   * The set path only looks for the marker text: a status such as `ret=OKAY` is accepted by
   * `set_control_info` although `test_connection` would not accept the same body.
   */
  lemma MarkerIsASubstringTest(c: Client, t: Transport)
    requires t.curl == Exited(0, "ret=OKAY", "")
    ensures Ready(c, t) ==> SetControlInfo(c, map[], t).result == Ok(true)
    ensures !TestConnection(c, t).result
  {
    assert RetOk <= "ret=OKAY";
    OkayBody();
  }

  lemma OkayBody()
    ensures ParseBody("ret=OKAY") == map["ret" := "OKAY"]
  {
    assert Item("ret", "OKAY") == "ret=OKAY";
    assert Items([("ret", "OKAY")]) == ["ret=OKAY"];
    assert Serialize([("ret", "OKAY")]) == "ret=OKAY";
    ParseRoundTrip([("ret", "OKAY")]);
    assert PairsToMap([("ret", "OKAY")]) == map["ret" := "OKAY"];
  }

  /**
   * A configuration file that cannot be created is the one failure the set path does not
   * turn into `false`: `set_control_info` raises and nothing is sent, while
   * `test_connection` catches the same exception and answers `false`.
   */
  lemma CreationFailureEscapesSetPath(c: Client, kwargs: map<string, string>, t: Transport)
    requires c.sslConfig.None? && t.newConfig.CreateFailed?
    ensures SetControlInfo(c, kwargs, t) == Exchange(c, [], Raised(t.newConfig.message))
    ensures TestConnection(c, t) == Exchange(c, [], false)
  {
  }
}

=== FILE: climate.dfy ===
/**
 * The climate entity (custom_components/daikin_local/climate.py): its polled projection of
 * the three device maps and its three read-modify-write changes.
 */
module Climate {
  import opened Optional
  import opened Codec
  import opened Codes
  import opened Client
  import opened Control
  import opened Entity

  /** The entity's attributes; temperatures and humidities are kept as the device's text. */
  datatype Climate = Climate(
    power: bool,
    hvacMode: string,
    fanMode: string,
    fanDirection: string,
    targetTemperature: Option<string>,
    currentTemperature: Option<string>,
    currentHumidity: Option<string>,
    deviceName: Option<string>,
    firmwareVersion: Option<string>,
    errorStatus: string)

  /** The attributes `__init__` sets. */
  const Initial := Climate(false, ModeOff, FanAuto, "0", None, None, None, None, None, "0")

  /** Power and HVAC mode agree: the mode is `off` exactly when the unit is off. */
  ghost predicate Consistent(st: Climate) {
    st.power <==> st.hvacMode != ModeOff
  }

  lemma InitialConsistent()
    ensures Consistent(Initial)
  {
  }

  /** The value of `key` in `m` when present, `previous` otherwise (an `if key in m:` assignment). */
  function Refresh(m: Response, key: string, previous: Option<string>): (r: Option<string>)
    ensures key in m ==> r == Some(m[key])
    ensures key !in m ==> r == previous
  {
    if key in m then Some(m[key]) else previous
  }

  /**
   * `int(mode)` raises during the projection: `pow` is `1` and the `mode` text (default `1`)
   * is not an integer.
   */
  predicate ModeUnreadable(control: Response) {
    "pow" in control && control["pow"] == "1" && HvacModeOf(Lookup(control, "mode", "1")).None?
  }

  /** The message of the `ValueError` that `int` raises for `text`. */
  function IntErrorMessage(text: string): string {
    "invalid literal for int() with base 10: '" + text + "'"
  }

  /**
   * The assignments of `async_update` once all three maps are fetched: each attribute is
   * refreshed only when its field is present. With `pow` present the power follows it and
   * the HVAC mode is `off` when off, the shown mode of `mode` (default `1`) otherwise. When
   * that mode is no integer, `int` raises right after the power was assigned, so the power
   * is the only attribute that changes.
   */
  function Project(st: Climate, control: Response, sensor: Response, basic: Response): (r: Climate)
    ensures ModeUnreadable(control) ==> r == st.(power := true)
    ensures !ModeUnreadable(control) ==> ProjectedFrom(r, st, control, sensor, basic)
    ensures !ModeUnreadable(control) && Consistent(st) ==> Consistent(r)
  {
    if ModeUnreadable(control) then st.(power := true)
    else
      var power := if "pow" in control then control["pow"] == "1" else st.power;
      var hvacMode :=
        if "pow" !in control then st.hvacMode
        else if !power then ModeOff
        else HvacModeOf(Lookup(control, "mode", "1")).value;
      Climate(
        power,
        hvacMode,
        if "f_rate" in control then FanModeOf(control["f_rate"]) else st.fanMode,
        Lookup(control, "f_dir", st.fanDirection),
        Refresh(control, "stemp", st.targetTemperature),
        Refresh(sensor, "htemp", st.currentTemperature),
        Refresh(sensor, "hhum", st.currentHumidity),
        Refresh(basic, "name", st.deviceName),
        Refresh(basic, "ver", st.firmwareVersion),
        Lookup(basic, "err", st.errorStatus))
  }

  /** The attributes after a complete projection, field by field. */
  ghost predicate ProjectedFrom(r: Climate, st: Climate, control: Response, sensor: Response, basic: Response) {
    && ("pow" in control ==> r.power == (control["pow"] == "1"))
    && ("pow" in control && r.power ==> Some(r.hvacMode) == HvacModeOf(Lookup(control, "mode", "1")))
    && ("pow" in control && !r.power ==> r.hvacMode == ModeOff)
    && ("pow" !in control ==> r.power == st.power && r.hvacMode == st.hvacMode)
    && ("f_rate" in control ==> r.fanMode == FanModeOf(control["f_rate"]) && r.fanMode in HaFanToDaikin)
    && ("f_rate" !in control ==> r.fanMode == st.fanMode)
    && r.targetTemperature == Refresh(control, "stemp", st.targetTemperature)
    && r.currentTemperature == Refresh(sensor, "htemp", st.currentTemperature)
    && r.currentHumidity == Refresh(sensor, "hhum", st.currentHumidity)
    && r.deviceName == Refresh(basic, "name", st.deviceName)
    && r.firmwareVersion == Refresh(basic, "ver", st.firmwareVersion)
    && r.fanDirection == Lookup(control, "f_dir", st.fanDirection)
    && r.errorStatus == Lookup(basic, "err", st.errorStatus)
  }

  /** Projecting the same maps again changes nothing. */
  lemma ProjectIdempotent(st: Climate, control: Response, sensor: Response, basic: Response)
    ensures Project(Project(st, control, sensor, basic), control, sensor, basic) == Project(st, control, sensor, basic)
  {
  }

  /**
   * The partial update breaks the agreement of power and mode: an entity that is off and
   * reads `pow=1,mode=x` ends up powered with its mode still `off`.
   */
  lemma UnreadableModeSplitsPowerFromMode()
    ensures var control := map["pow" := "1", "mode" := "x"];
      && ModeUnreadable(control)
      && !Consistent(Project(Initial, control, map[], map[]))
  {
    var control := map["pow" := "1", "mode" := "x"];
    LetterModeUnreadable(control);
    assert Project(Initial, control, map[], map[]) == Initial.(power := true);
  }

  /** A powered map whose `mode` is `x` cannot be read. */
  lemma LetterModeUnreadable(control: Response)
    requires control == map["pow" := "1", "mode" := "x"]
    ensures ModeUnreadable(control)
  {
    assert Lookup(control, "mode", "1") == "x";
    LetterIsNoModeCode();
  }

  /** `int("x")` raises, so the text `x` shows no mode. */
  lemma LetterIsNoModeCode()
    ensures HvacModeOf("x").None?
  {
    ParseIntRejects("x");
  }

  /**
   * `async_update`: fetch control, sensor and basic info in that order, stopping at the first
   * failure, which is logged; all fetches precede all assignments, so a failed fetch changes
   * nothing. A `ValueError` from the projection is logged the same way. Only the first fetch
   * can fail to create the configuration file: once it reaches curl the file exists.
   */
  function Update(st: Climate, c: Client, tc: Transport, ts: Transport, tb: Transport): (r: Step<Climate>)
    ensures !(Fetched(c, tc) && CurlOk(ts.curl) && CurlOk(tb.curl)) ==> r.state == st && r.completion.Logged?
    ensures Fetched(c, tc) && CurlOk(ts.curl) && CurlOk(tb.curl) ==>
      var control := ParseBody(tc.curl.stdout);
      && r.state == Project(st, control, ParseBody(ts.curl.stdout), ParseBody(tb.curl.stdout))
      && (!ModeUnreadable(control) ==> r.completion == Completed)
      && (ModeUnreadable(control) ==> r.completion == Logged(IntErrorMessage(Lookup(control, "mode", "1"))))
    ensures GetControlInfo(c, tc).sent <= r.sent && |r.sent| <= 3
    ensures Consistent(st) && r.completion == Completed ==> Consistent(r.state)
  {
    var g1 := GetControlInfo(c, tc);
    match g1.result
    case Raised(e1) => Step(g1.client, st, g1.sent, Logged(e1))
    case Ok(control) =>
      var g2 := GetSensorInfo(g1.client, ts);
      match g2.result
      case Raised(e2) => Step(g2.client, st, g1.sent + g2.sent, Logged(e2))
      case Ok(sensor) =>
        var g3 := GetBasicInfo(g2.client, tb);
        match g3.result
        case Raised(e3) => Step(g3.client, st, g1.sent + g2.sent + g3.sent, Logged(e3))
        case Ok(basic) =>
          var completion := if ModeUnreadable(control) then Logged(IntErrorMessage(Lookup(control, "mode", "1"))) else Completed;
          Step(g3.client, Project(st, control, sensor, basic), g1.sent + g2.sent + g3.sent, completion)
  }

  // ---------------------------------------------------------------------------
  // Changes
  // ---------------------------------------------------------------------------

  /** Fallbacks of `async_set_temperature` (it overrides `stemp`). */
  const TemperatureFallback: map<Field, string> := map[Pow := "1", Mode := "1", Shum := "0", FRate := "A", FDir := "0"]

  /** Fallbacks of `async_set_hvac_mode(OFF)` (it overrides `pow`). */
  const OffFallback: map<Field, string> := map[Mode := "0", Stemp := "22.0", Shum := "0", FRate := "A", FDir := "0"]

  /** Fallbacks of `async_set_hvac_mode` with another mode (it overrides `pow` and `mode`). */
  const OnFallback: map<Field, string> := map[Stemp := "22.0", Shum := "0", FRate := "A", FDir := "0"]

  /** Fallbacks of `async_set_fan_mode` (it overrides `f_rate`). */
  const FanFallback: map<Field, string> := map[Pow := "1", Mode := "1", Stemp := "22.0", Shum := "0", FDir := "0"]

  /**
   * The fields the HVAC-mode change overrides: always `pow` (`1` exactly when the mode is not
   * `off`), and `mode` only when turning on, with a valid device code that a known mode
   * reads back as itself. The fallbacks of the matching branch supply every other field.
   */
  function HvacOverrides(mode: string): (o: map<Field, string>)
    ensures Pow in o && (o[Pow] == "1" <==> mode != ModeOff) && o[Pow] in {"0", "1"}
    ensures Mode in o <==> mode != ModeOff
    ensures o.Keys <= {Pow, Mode}
    ensures Mode in o ==> o[Mode] in {"0", "1", "2", "3", "4"}
    ensures mode in HaModeToDaikin ==> Mode in o && HvacModeOf(o[Mode]) == Some(mode)
    ensures Covers(OffFallback, o)
    ensures mode != ModeOff ==> Covers(OnFallback, o)
  {
    if mode == ModeOff then
      OffHasNoModeCode();
      map[Pow := "0"]
    else
      KnownModeReadsBack(mode);
      map[Pow := "1", Mode := DaikinModeFor(mode)]
  }

  /** The code sent for a known mode reads back as that mode. */
  lemma KnownModeReadsBack(mode: string)
    ensures mode in HaModeToDaikin ==> HvacModeOf(DaikinModeFor(mode)) == Some(mode)
  {
    if mode in HaModeToDaikin {
      HvacModeRoundTrip(mode);
    }
  }

  /**
   * `async_set_temperature`: without a temperature nothing is fetched or sent; otherwise the
   * requested `stemp` is sent with the other five fields carried over, and only the target
   * temperature attribute changes, only when the set is accepted.
   */
  function SetTemperature(st: Climate, c: Client, temperature: Option<string>, read: Transport, write: Transport): (r: Step<Climate>)
    ensures temperature.None? ==> r == Step(c, st, [], Completed)
    ensures temperature.Some? ==>
      Performs(r, c, read, write, TemperatureFallback, map[Stemp := temperature.value],
               st, st.(targetTemperature := temperature))
    ensures r.state == st || (r.state == st.(targetTemperature := temperature) && SetAccepted(write.curl))
  {
    match temperature
    case None => Step(c, st, [], Completed)
    case Some(t) =>
      Change(c, read, write, TemperatureFallback, map[Stemp := t], st, st.(targetTemperature := temperature))
  }

  /**
   * `async_set_hvac_mode`: `off` sends `pow=0` and keeps the mode; any other mode sends
   * `pow=1` and that mode's code (`1` for a mode without one). On acceptance the mode is shown
   * and the power is on exactly when the mode is not `off`.
   */
  function SetHvacMode(st: Climate, c: Client, mode: string, read: Transport, write: Transport): (r: Step<Climate>)
    ensures mode == ModeOff ==>
      Performs(r, c, read, write, OffFallback, HvacOverrides(mode), st, st.(hvacMode := mode, power := false))
    ensures mode != ModeOff ==>
      Performs(r, c, read, write, OnFallback, HvacOverrides(mode), st, st.(hvacMode := mode, power := true))
    ensures r.state == st || (r.state == st.(hvacMode := mode, power := mode != ModeOff) && SetAccepted(write.curl))
  {
    var after := st.(hvacMode := mode, power := mode != ModeOff);
    if mode == ModeOff then Change(c, read, write, OffFallback, HvacOverrides(mode), st, after)
    else Change(c, read, write, OnFallback, HvacOverrides(mode), st, after)
  }

  /**
   * `async_set_fan_mode`: sends the fan mode's `f_rate` code (`A` for an unknown mode) with
   * the other five fields carried over; on acceptance the requested mode is shown.
   */
  function SetFanMode(st: Climate, c: Client, fanMode: string, read: Transport, write: Transport): (r: Step<Climate>)
    ensures Performs(r, c, read, write, FanFallback, map[FRate := FanRateFor(fanMode)], st, st.(fanMode := fanMode))
    ensures r.state == st || (r.state == st.(fanMode := fanMode) && SetAccepted(write.curl))
  {
    Change(c, read, write, FanFallback, map[FRate := FanRateFor(fanMode)], st, st.(fanMode := fanMode))
  }

  // ---------------------------------------------------------------------------
  // Properties across calls
  // ---------------------------------------------------------------------------

  /** Every change keeps power and HVAC mode in agreement, whatever the device answers. */
  lemma ChangesPreserveConsistency(st: Climate, c: Client, temperature: Option<string>, mode: string,
                                   fanMode: string, read: Transport, write: Transport)
    requires Consistent(st)
    ensures Consistent(SetTemperature(st, c, temperature, read, write).state)
    ensures Consistent(SetHvacMode(st, c, mode, read, write).state)
    ensures Consistent(SetFanMode(st, c, fanMode, read, write).state)
  {
  }

  /**
   * What the HVAC-mode change sends when the fetch succeeds: `pow` and `mode` as the mode
   * requires, everything else as fetched (or its fallback).
   */
  lemma HvacModeSends(m: Response, mode: string)
    ensures mode == ModeOff ==>
      var s := Merge(m, OffFallback, HvacOverrides(mode));
      s.pow == "0" && s.mode == Lookup(m, "mode", "0") && s.stemp == Lookup(m, "stemp", "22.0")
    ensures mode != ModeOff ==>
      var s := Merge(m, OnFallback, HvacOverrides(mode));
      s.pow == "1" && s.mode == DaikinModeFor(mode) && s.mode in {"0", "1", "2", "3", "4"}
      && s.stemp == Lookup(m, "stemp", "22.0") && s.fDir == Lookup(m, "f_dir", "0")
    ensures mode in HaModeToDaikin ==> HvacModeOf(Merge(m, OnFallback, HvacOverrides(mode)).mode) == Some(mode)
  {
    if mode in HaModeToDaikin {
      HvacModeRoundTrip(mode);
    }
  }

  /** With nothing fetched, each change falls back to its own defaults. */
  lemma ChangesOnEmptyFetch(t: string, mode: string, fanMode: string)
    ensures Merge(map[], TemperatureFallback, map[Stemp := t]) == Settings("1", "1", t, "0", "A", "0")
    ensures Merge(map[], OffFallback, HvacOverrides(ModeOff)) == Settings("0", "0", "22.0", "0", "A", "0")
    ensures mode != ModeOff ==>
      Merge(map[], OnFallback, HvacOverrides(mode)) == Settings("1", DaikinModeFor(mode), "22.0", "0", "A", "0")
    ensures Merge(map[], FanFallback, map[FRate := FanRateFor(fanMode)]) == Settings("1", "1", "22.0", "0", FanRateFor(fanMode), "0")
  {
  }

  /**
   * Each change resends the fetched fields it does not target verbatim: on a complete
   * fetch, only the overridden fields differ from what was read.
   */
  lemma ChangesTouchOnlyTargets(m: Response, t: string, mode: string, fanMode: string)
    requires Complete(m)
    ensures OnlyChanged(Observed(m), Merge(m, TemperatureFallback, map[Stemp := t]), {Stemp})
    ensures OnlyChanged(Observed(m), Merge(m, OffFallback, HvacOverrides(ModeOff)), {Pow})
    ensures mode != ModeOff ==> OnlyChanged(Observed(m), Merge(m, OnFallback, HvacOverrides(mode)), {Pow, Mode})
    ensures OnlyChanged(Observed(m), Merge(m, FanFallback, map[FRate := FanRateFor(fanMode)]), {FRate})
  {
    MergeChangesOnlyTargets(m, TemperatureFallback, map[Stemp := t]);
    MergeChangesOnlyTargets(m, OffFallback, HvacOverrides(ModeOff));
    if mode != ModeOff {
      MergeChangesOnlyTargets(m, OnFallback, HvacOverrides(mode));
    }
    MergeChangesOnlyTargets(m, FanFallback, map[FRate := FanRateFor(fanMode)]);
  }

  /**
   * Setting 24.0 degrees on a unit that reports `pow=1,mode=1,stemp=22.0,shum=0,f_rate=A,
   * f_dir=0` sends the same six fields in order with only `stemp` replaced.
   */
  lemma TemperatureScenario()
    ensures var m := map["ret" := "OK", "pow" := "1", "mode" := "1", "stemp" := "22.0",
                         "shum" := "0", "f_rate" := "A", "f_dir" := "0"];
      Merge(m, TemperatureFallback, map[Stemp := "24.0"]).Ordered() ==
        [("pow", "1"), ("mode", "1"), ("stemp", "24.0"), ("shum", "0"), ("f_rate", "A"), ("f_dir", "0")]
  {
    var m := map["ret" := "OK", "pow" := "1", "mode" := "1", "stemp" := "22.0",
                 "shum" := "0", "f_rate" := "A", "f_dir" := "0"];
    var s := Merge(m, TemperatureFallback, map[Stemp := "24.0"]);
    assert s.pow == s.Get(Pow) && s.mode == s.Get(Mode) && s.stemp == s.Get(Stemp);
    assert s.shum == s.Get(Shum) && s.fRate == s.Get(FRate) && s.fDir == s.Get(FDir);
  }
}

=== FILE: codec.dfy ===
/**
 * The device's wire formats (custom_components/daikin_local/daikin_client.py): the flat
 * `key=value,key=value` response body and the `key=value&key=value` query string, which the
 * client writes without any escaping.
 */
module Codec {
  import opened Optional
  import opened Text

  /** An ordered parameter dictionary (a Python `dict` keeps insertion order). */
  type Pairs = seq<(string, string)>

  /** A parsed response: field name to raw text, no coercion. */
  type Response = map<string, string>

  // ---------------------------------------------------------------------------
  // Ordered dictionaries
  // ---------------------------------------------------------------------------

  function KeysOf(ps: Pairs): (ks: seq<string>)
    ensures |ks| == |ps|
    ensures forall i :: 0 <= i < |ps| ==> ks[i] == ps[i].0
  {
    seq(|ps|, i requires 0 <= i < |ps| => ps[i].0)
  }

  ghost predicate Distinct(ks: seq<string>) {
    forall i, j :: 0 <= i < j < |ks| ==> ks[i] != ks[j]
  }

  /** The keys of an ordered dictionary are pairwise different. */
  ghost predicate DistinctKeys(ps: Pairs) {
    Distinct(KeysOf(ps))
  }

  /** The value stored under `k` in an ordered dictionary. */
  function Get(ps: Pairs, k: string): (r: Option<string>)
    ensures r.Some? <==> k in KeysOf(ps)
  {
    if |ps| == 0 then None
    else if ps[0].0 == k then Some(ps[0].1)
    else
      var r := Get(ps[1..], k);
      assert KeysOf(ps) == [ps[0].0] + KeysOf(ps[1..]);
      r
  }

  /**
   * Python's `d[k] = v`: a key already present keeps its position, a new key goes to the end.
   */
  function DictSet(ps: Pairs, k: string, v: string): (r: Pairs)
    requires DistinctKeys(ps)
    ensures DistinctKeys(r)
    ensures k in KeysOf(ps) ==> KeysOf(r) == KeysOf(ps)
    ensures k !in KeysOf(ps) ==> KeysOf(r) == KeysOf(ps) + [k]
  {
    var r := SetEntry(ps, k, v);
    assert k !in KeysOf(ps) ==> forall i :: 0 <= i < |ps| ==> KeysOf(ps)[i] != k;
    r
  }

  function SetEntry(ps: Pairs, k: string, v: string): (r: Pairs)
    ensures k in KeysOf(ps) ==> KeysOf(r) == KeysOf(ps)
    ensures k !in KeysOf(ps) ==> KeysOf(r) == KeysOf(ps) + [k]
  {
    if |ps| == 0 then [(k, v)]
    else
      assert ps == [ps[0]] + ps[1..];
      KeysOfCons(ps[0], ps[1..]);
      if ps[0].0 == k then
        KeysOfCons((k, v), ps[1..]);
        [(k, v)] + ps[1..]
      else
        var tail := SetEntry(ps[1..], k, v);
        KeysOfCons(ps[0], tail);
        [ps[0]] + tail
  }

  /** The keys of a list with a pair in front: that pair's key, then the rest's keys. */
  lemma KeysOfCons(p: (string, string), rest: Pairs)
    ensures KeysOf([p] + rest) == [p.0] + KeysOf(rest)
  {
  }

  /** After `d[k] = v`, `k` holds `v` and every other key holds what it held before. */
  lemma {:induction false} DictSetGet(ps: Pairs, k: string, v: string, k': string)
    requires DistinctKeys(ps)
    ensures Get(DictSet(ps, k, v), k') == if k' == k then Some(v) else Get(ps, k')
  {
    SetEntryGet(ps, k, v, k');
  }

  lemma {:induction false} SetEntryGet(ps: Pairs, k: string, v: string, k': string)
    ensures Get(SetEntry(ps, k, v), k') == if k' == k then Some(v) else Get(ps, k')
  {
    if |ps| > 0 && ps[0].0 != k {
      SetEntryGet(ps[1..], k, v, k');
    }
  }

  // ---------------------------------------------------------------------------
  // `key=value` items
  // ---------------------------------------------------------------------------

  /** The `f"{key}={value}"` rendering used for both the query and the response body. */
  function Item(k: string, v: string): string {
    k + "=" + v
  }

  function Items(ps: Pairs): (items: seq<string>)
    ensures |items| == |ps|
    ensures forall i :: 0 <= i < |ps| ==> items[i] == Item(ps[i].0, ps[i].1)
  {
    seq(|ps|, i requires 0 <= i < |ps| => Item(ps[i].0, ps[i].1))
  }

  /** Segment `seg` assigns field `k`: it has an `=` and the text before the first one is `k`. */
  predicate Defines(seg: string, k: string) {
    '=' in seg && Partition(seg, '=').0 == k
  }

  /** The value a segment assigns: everything after its first `=`, further `=` included. */
  function ValueOf(seg: string): string
    requires '=' in seg
  {
    Partition(seg, '=').1
  }

  // ---------------------------------------------------------------------------
  // Response bodies (daikin_client.py:94-101)
  // ---------------------------------------------------------------------------

  /** The comma-separated segments of a body after surrounding whitespace is stripped. */
  function Segments(body: string): seq<string> {
    Split(Strip(body), ',')
  }

  /** The dictionary built by visiting `segs` in order, keeping only segments with an `=`. */
  function Collect(segs: seq<string>): Response
  {
    if |segs| == 0 then map[]
    else
      var m := Collect(segs[..|segs| - 1]);
      var seg := segs[|segs| - 1];
      if '=' in seg then m[Partition(seg, '=').0 := ValueOf(seg)] else m
  }

  /** The response dictionary the client returns for a device body. */
  function ParseBody(body: string): Response {
    Collect(Segments(body))
  }

  /** Segment `i` is the last one in `segs` that assigns field `k`. */
  ghost predicate LastDefinition(segs: seq<string>, k: string, i: int) {
    && 0 <= i < |segs|
    && Defines(segs[i], k)
    && forall j :: i < j < |segs| ==> !Defines(segs[j], k)
  }

  /** A last segment that does not assign `k` leaves the entry for `k` as it was. */
  lemma CollectStepOther(segs: seq<string>, k: string)
    requires |segs| > 0
    requires !Defines(segs[|segs| - 1], k)
    ensures k in Collect(segs) <==> k in Collect(segs[..|segs| - 1])
    ensures k in Collect(segs) ==> Collect(segs)[k] == Collect(segs[..|segs| - 1])[k]
  {
  }

  /** A field is present exactly when some segment assigns it; segments without `=` add nothing. */
  lemma {:induction false} CollectPresence(segs: seq<string>, k: string)
    ensures k in Collect(segs) <==> exists i :: 0 <= i < |segs| && Defines(segs[i], k)
  {
    if |segs| > 0 {
      var n := |segs| - 1;
      var init := segs[..n];
      CollectPresence(init, k);
      if !Defines(segs[n], k) {
        CollectStepOther(segs, k);
        if i :| 0 <= i < |segs| && Defines(segs[i], k) {
          assert init[i] == segs[i];
        }
        if i :| 0 <= i < |init| && Defines(init[i], k) {
          assert init[i] == segs[i];
        }
      }
    }
  }

  /** A present field holds the value assigned by the last segment that assigns it. */
  lemma {:induction false} CollectLastWins(segs: seq<string>, k: string)
    requires k in Collect(segs)
    ensures exists i :: LastDefinition(segs, k, i) && Collect(segs)[k] == ValueOf(segs[i])
  {
    var n := |segs| - 1;
    var init := segs[..n];
    if Defines(segs[n], k) {
      CollectLastDefines(segs, k);
    } else {
      CollectStepOther(segs, k);
      CollectLastWins(init, k);
      var i :| LastDefinition(init, k, i) && Collect(init)[k] == ValueOf(init[i]);
      LastDefinitionExtends(segs, k, i);
    }
  }

  /** A last segment that assigns `k` is its last definition, and `k` holds its value. */
  lemma CollectLastDefines(segs: seq<string>, k: string)
    requires |segs| > 0 && Defines(segs[|segs| - 1], k)
    ensures LastDefinition(segs, k, |segs| - 1)
    ensures k in Collect(segs) && Collect(segs)[k] == ValueOf(segs[|segs| - 1])
  {
  }

  /** Appending a segment that does not assign `k` keeps the last definition of `k` where it was. */
  lemma LastDefinitionExtends(segs: seq<string>, k: string, i: int)
    requires |segs| > 0 && !Defines(segs[|segs| - 1], k)
    requires LastDefinition(segs[..|segs| - 1], k, i)
    ensures LastDefinition(segs, k, i) && segs[i] == segs[..|segs| - 1][i]
  {
  }

  /** `ParseBody` stated over the body's segments: only `=` segments count, last one wins. */
  lemma ParseBodyLastWins(body: string, k: string)
    ensures k in ParseBody(body) <==> exists i :: 0 <= i < |Segments(body)| && Defines(Segments(body)[i], k)
    ensures k in ParseBody(body) ==>
      exists i :: LastDefinition(Segments(body), k, i) && ParseBody(body)[k] == ValueOf(Segments(body)[i])
  {
    CollectPresence(Segments(body), k);
    if k in ParseBody(body) {
      CollectLastWins(Segments(body), k);
    }
  }

  /** The parse loop of the client, segment by segment. */
  method ParseResponse(stdout: string) returns (data: Response)
    ensures data == ParseBody(stdout)
  {
    var segs := Split(Strip(stdout), ',');
    data := map[];
    var i := 0;
    while i < |segs|
      invariant 0 <= i <= |segs|
      invariant data == Collect(segs[..i])
    {
      var seg := segs[i];
      assert segs[..i + 1][..i] == segs[..i];
      if '=' in seg {
        var kv := Partition(seg, '=');
        data := data[kv.0 := kv.1];
      }
      i := i + 1;
    }
    assert segs[..|segs|] == segs;
  }

  // ---------------------------------------------------------------------------
  // Round trip of the body format
  // ---------------------------------------------------------------------------

  /** Python's `dict(pairs)`: later pairs overwrite earlier ones. */
  function PairsToMap(ps: Pairs): Response {
    if |ps| == 0 then map[]
    else PairsToMap(ps[..|ps| - 1])[ps[|ps| - 1].0 := ps[|ps| - 1].1]
  }

  /** The body a device would send for the fields `ps`. */
  function Serialize(ps: Pairs): string {
    Join(Items(ps), ',')
  }

  /**
   * Pairs the body format can carry unambiguously: keys free of `,` and `=`, values free of
   * `,`, and no whitespace at the two ends of the whole body.
   */
  ghost predicate BodySafe(ps: Pairs) {
    && (forall i :: 0 <= i < |ps| ==> ',' !in ps[i].0 && '=' !in ps[i].0 && ',' !in ps[i].1)
    && (|ps| > 0 && |ps[0].0| > 0 ==> !IsSpace(ps[0].0[0]))
    && (|ps| > 0 && |ps[|ps| - 1].1| > 0 ==> !IsSpace(ps[|ps| - 1].1[|ps[|ps| - 1].1| - 1]))
  }

  lemma {:induction false} CollectItems(ps: Pairs)
    requires forall i :: 0 <= i < |ps| ==> '=' !in ps[i].0
    ensures Collect(Items(ps)) == PairsToMap(ps)
  {
    if |ps| > 0 {
      var n := |ps| - 1;
      assert Items(ps)[..n] == Items(ps[..n]);
      CollectItems(ps[..n]);
      PartitionOfJoined(ps[n].0, '=', ps[n].1);
      assert Item(ps[n].0, ps[n].1) == ps[n].0 + ['='] + ps[n].1;
    }
  }

  /** Parsing the serialisation of body-safe pairs gives `dict(pairs)`: the format round-trips. */
  lemma ParseRoundTrip(ps: Pairs)
    requires BodySafe(ps)
    ensures ParseBody(Serialize(ps)) == PairsToMap(ps)
  {
    var items := Items(ps);
    if |ps| == 0 {
      assert Serialize(ps) == "";
      assert Split("", ',') == [""];
      assert Collect([""]) == Collect([]);
    } else {
      assert forall i :: 0 <= i < |ps| ==> ',' !in items[i] by {
        forall i | 0 <= i < |ps| ensures ',' !in items[i] {
          assert items[i] == ps[i].0 + ['='] + ps[i].1;
        }
      }
      var first := items[0];
      var last := items[|ps| - 1];
      assert first == ps[0].0 + ['='] + ps[0].1;
      assert last == ps[|ps| - 1].0 + ['='] + ps[|ps| - 1].1;
      JoinEnds(items, ',');
      StripKeeps(Serialize(ps));
      SplitJoin(items, ',');
      CollectItems(ps);
    }
  }

  /** Facts about `dict(pairs)`: its keys are the pairs' keys, its values the last pair's. */
  lemma {:induction false} PairsToMapLastWins(ps: Pairs, k: string)
    ensures k in PairsToMap(ps) <==> k in KeysOf(ps)
    ensures forall i :: 0 <= i < |ps| && ps[i].0 == k && (forall j :: i < j < |ps| ==> ps[j].0 != k)
              ==> k in PairsToMap(ps) && PairsToMap(ps)[k] == ps[i].1
  {
    if |ps| > 0 {
      var n := |ps| - 1;
      PairsToMapLastWins(ps[..n], k);
      assert KeysOf(ps) == KeysOf(ps[..n]) + [ps[n].0];
      assert forall i :: 0 <= i < n ==> ps[..n][i] == ps[i];
    }
  }

  /** The pairs of `m` listed in the order `order`. */
  function PairsOf(m: Response, order: seq<string>): (ps: Pairs)
    requires forall i :: 0 <= i < |order| ==> order[i] in m
    ensures KeysOf(ps) == order
  {
    seq(|order|, i requires 0 <= i < |order| => (order[i], m[order[i]]))
  }

  /** Listing each key of `m` once and rebuilding with `dict(...)` gives `m` back. */
  lemma PairsOfToMap(m: Response, order: seq<string>)
    requires forall k :: k in m <==> k in order
    requires Distinct(order)
    ensures PairsToMap(PairsOf(m, order)) == m
  {
    var ps := PairsOf(m, order);
    var r := PairsToMap(ps);
    forall k | k in m
      ensures k in r && r[k] == m[k]
    {
      PairsToMapLastWins(ps, k);
      var i :| 0 <= i < |order| && order[i] == k;
      assert ps[i] == (k, m[k]);
    }
    forall k | k in r
      ensures k in m
    {
      PairsToMapLastWins(ps, k);
    }
  }

  /** Ends of the body: the first key and last value decide what stripping could remove. */
  lemma PairsOfSafe(m: Response, order: seq<string>)
    requires forall i :: 0 <= i < |order| ==> order[i] in m
    requires forall k :: k in m ==> ',' !in k && '=' !in k && ',' !in m[k]
    requires forall k :: k in m && |k| > 0 ==> !IsSpace(k[0])
    requires forall k :: k in m && |m[k]| > 0 ==> !IsSpace(m[k][|m[k]| - 1])
    ensures BodySafe(PairsOf(m, order))
  {
    var ps := PairsOf(m, order);
    assert forall i :: 0 <= i < |ps| ==> ps[i] == (order[i], m[order[i]]);
  }

  /**
   * The round trip stated on a dictionary: list every key of `m` once, in any order, serialise
   * and parse back; the result is `m`.
   */
  lemma ParseRoundTripMap(m: Response, order: seq<string>)
    requires forall k :: k in m <==> k in order
    requires Distinct(order)
    requires forall k :: k in m ==> ',' !in k && '=' !in k && ',' !in m[k]
    requires forall k :: k in m && |k| > 0 ==> !IsSpace(k[0])
    requires forall k :: k in m && |m[k]| > 0 ==> !IsSpace(m[k][|m[k]| - 1])
    ensures ParseBody(Serialize(PairsOf(m, order))) == m
  {
    PairsOfSafe(m, order);
    ParseRoundTrip(PairsOf(m, order));
    PairsOfToMap(m, order);
  }

  // ---------------------------------------------------------------------------
  // Query strings (daikin_client.py:62-74 and 115-125)
  // ---------------------------------------------------------------------------

  /** `"&".join(f"{k}={v}" for k, v in params.items())`, with no percent-encoding. */
  function RenderQuery(ps: Pairs): string {
    Join(Items(ps), '&')
  }

  /** How a reader of the query takes it apart: split on `&`, then at each item's first `=`. */
  function ReadQuery(q: string): Pairs {
    var items := Split(q, '&');
    seq(|items|, i requires 0 <= i < |items| =>
      if '=' in items[i] then Partition(items[i], '=') else (items[i], ""))
  }

  /** Pairs the query format carries unambiguously despite the lack of escaping. */
  ghost predicate QuerySafe(ps: Pairs) {
    forall i :: 0 <= i < |ps| ==> '&' !in ps[i].0 && '=' !in ps[i].0 && '&' !in ps[i].1
  }

  /** A non-empty, query-safe parameter list is read back from its query exactly, in order. */
  lemma QueryRoundTrip(ps: Pairs)
    requires |ps| > 0
    requires QuerySafe(ps)
    ensures ReadQuery(RenderQuery(ps)) == ps
  {
    var items := Items(ps);
    forall i | 0 <= i < |ps|
      ensures '&' !in items[i] && '=' in items[i] && Partition(items[i], '=') == ps[i]
    {
      assert items[i] == ps[i].0 + ['='] + ps[i].1;
      PartitionOfJoined(ps[i].0, '=', ps[i].1);
    }
    SplitJoin(items, '&');
  }

  /** `url?query`, with the `?` only when the query is non-empty (daikin_client.py:73-74). */
  function WithQuery(url: string, q: string): string {
    if q != "" then url + "?" + q else url
  }

  /**
   * The URL of a request: the caller's parameters with `key` set to the client's key (kept
   * in place if the caller supplied one, appended otherwise). The key makes the query
   * non-empty, so the `?` is always written.
   */
  function RequestUrl(base: string, endpoint: string, params: Pairs, key: string): (url: string)
    requires DistinctKeys(params)
    ensures url == base + endpoint + "?" + RenderQuery(DictSet(params, "key", key))
    ensures Get(DictSet(params, "key", key), "key") == Some(key)
  {
    var ps := DictSet(params, "key", key);
    DictSetGet(params, "key", key, "key");
    assert |KeysOf(ps)| > 0;
    var items := Items(ps);
    assert forall i :: 0 <= i < |items| ==> |items[i]| > 0 by {
      forall i | 0 <= i < |items| ensures |items[i]| > 0 {
        assert items[i] == ps[i].0 + "=" + ps[i].1;
      }
    }
    JoinEnds(items, '&');
    WithQuery(base + endpoint, RenderQuery(ps))
  }
}

=== FILE: codes.dfy ===
/**
 * Constants of the integration (custom_components/daikin_local/const.py): endpoints, the
 * Daikin mode and fan-rate code tables with their inverses, and the temperature limits.
 */
module Codes {
  import opened Optional
  import opened Text

  const DefaultPort: nat := 443
  const DefaultTimeoutSeconds: nat := 10

  /**
   * Python's default `sys.int_max_str_digits`: `int` refuses decimal text with more digits
   * than this (leading zeros included, the sign not), raising `ValueError`.
   */
  const MaxStrDigits: nat := 4300

  const EndpointBasicInfo := "/common/basic_info"
  const EndpointControlInfo := "/aircon/get_control_info"
  const EndpointSensorInfo := "/aircon/get_sensor_info"
  const EndpointSetControl := "/aircon/set_control_info"
  const EndpointRegisterTerminal := "/common/register_terminal"

  // Home Assistant HVAC modes, as the strings the platform uses.
  const ModeOff := "off"
  const ModeAuto := "auto"
  const ModeCool := "cool"
  const ModeHeat := "heat"
  const ModeDry := "dry"
  const ModeFanOnly := "fan_only"

  /** `DAIKIN_MODE_TO_HA`: the device's numeric `mode` codes. */
  const DaikinModeToHa: map<int, string> :=
    map[0 := ModeFanOnly, 1 := ModeAuto, 2 := ModeDry, 3 := ModeCool, 4 := ModeHeat]

  /** `HA_MODE_TO_DAIKIN`, the dictionary the source builds by swapping the pairs above. */
  const HaModeToDaikin: map<string, int> :=
    map[ModeFanOnly := 0, ModeAuto := 1, ModeDry := 2, ModeCool := 3, ModeHeat := 4]

  // Fan speeds shown to the platform.
  const FanAuto := "auto"
  const FanQuiet := "quiet"
  const FanLow := "low"
  const FanMedium := "medium"
  const FanHigh := "high"
  const FanMax := "max"

  /** `DAIKIN_FAN_TO_HA`: the device's `f_rate` codes. */
  const DaikinFanToHa: map<string, string> :=
    map["A" := FanAuto, "B" := FanQuiet, "3" := FanLow, "4" := FanMedium, "5" := FanHigh, "6" := FanMax]

  /** `HA_FAN_TO_DAIKIN`, the swapped dictionary. */
  const HaFanToDaikin: map<string, string> :=
    map[FanAuto := "A", FanQuiet := "B", FanLow := "3", FanMedium := "4", FanHigh := "5", FanMax := "6"]

  // Temperature limits in half degrees Celsius: 16.0, 32.0 and a 0.5 step.
  const MinTempHalves: int := 32
  const MaxTempHalves: int := 64
  const TempStepHalves: int := 1

  /** The two tables are inverse dictionaries of each other. */
  ghost predicate Inverse<K, V>(forward: map<K, V>, backward: map<V, K>) {
    && (forall k :: k in forward ==> forward[k] in backward && backward[forward[k]] == k)
    && (forall v :: v in backward ==> backward[v] in forward && forward[backward[v]] == v)
  }

  /** A dictionary that sends different keys to different values. */
  ghost predicate Injective<K, V>(m: map<K, V>) {
    forall k, k' :: k in m && k' in m && k != k' ==> m[k] != m[k']
  }

  /** The mode table is injective and `HA_MODE_TO_DAIKIN` is its exact inverse. */
  lemma ModeTablesInverse()
    ensures Injective(DaikinModeToHa)
    ensures Inverse(DaikinModeToHa, HaModeToDaikin)
    ensures DaikinModeToHa.Keys == {0, 1, 2, 3, 4}
  {
  }

  /** `off` is not a Daikin mode: it has no code in either direction. */
  lemma OffHasNoModeCode()
    ensures ModeOff !in HaModeToDaikin
    ensures forall k :: k in DaikinModeToHa ==> DaikinModeToHa[k] != ModeOff
  {
  }

  /** The fan table is injective and `HA_FAN_TO_DAIKIN` is its exact inverse. */
  lemma FanTablesInverse()
    ensures Injective(DaikinFanToHa)
    ensures Inverse(DaikinFanToHa, HaFanToDaikin)
    ensures DaikinFanToHa.Keys == {"A", "B", "3", "4", "5", "6"}
  {
  }

  /** The target range is non-empty and a whole number of steps. */
  lemma TemperatureRange()
    ensures MinTempHalves < MaxTempHalves
    ensures TempStepHalves > 0 && (MaxTempHalves - MinTempHalves) % TempStepHalves == 0
  {
  }

  // ---------------------------------------------------------------------------
  // Lookups as the entities perform them
  // ---------------------------------------------------------------------------

  /**
   * Python's `int(text)` on ASCII text: decimal digits after an optional sign, with
   * whitespace allowed around them, and no more than `MaxStrDigits` digits. Any other
   * text raises `ValueError`, here `None`.
   */
  function ParseInt(text: string): Option<int> {
    SignedDecimal(Strip(text))
  }

  /**
   * An optional sign followed by at least one and at most `MaxStrDigits` decimal digits,
   * and nothing else.
   */
  function SignedDecimal(t: string): Option<int> {
    if |t| > 1 && (t[0] == '+' || t[0] == '-') && IsDigits(t[1..]) then
      if |t| - 1 > MaxStrDigits then None
      else Some(if t[0] == '-' then -(DecimalValue(t[1..]) as int) else DecimalValue(t[1..]))
    else if IsDigits(t) && |t| <= MaxStrDigits then Some(DecimalValue(t))
    else None
  }

  /** A plain digit string is read as its decimal value, unless it has too many digits. */
  lemma ParseIntDigits(text: string)
    requires IsDigits(text)
    ensures ParseInt(text) == if |text| <= MaxStrDigits then Some(DecimalValue(text)) else None
  {
    DigitNotSpace(text[0]);
    DigitNotSpace(text[|text| - 1]);
    StripKeeps(text);
    UnsignedDecimal(text);
  }

  /** Text without a single digit makes `int` raise. */
  lemma ParseIntRejects(text: string)
    requires forall i :: 0 <= i < |text| ==> !('0' <= text[i] <= '9')
    ensures ParseInt(text).None?
  {
    var t := Strip(text);
    StripSlice(text);
    var k := LeadingSpace(text);
    assert forall j :: 0 <= j < |t| ==> t[j] == text[k + j];
    if |t| > 0 {
      assert !('0' <= t[|t| - 1] <= '9');
      assert !IsDigits(t) && !IsDigits(t[1..]);
    }
  }

  /**
   * `int` ignores any whitespace, of any length, before and after a digit string; only the
   * digits count towards the limit.
   */
  lemma ParseIntPadded(a: string, d: string, b: string)
    requires AllSpace(a) && AllSpace(b) && IsDigits(d)
    ensures ParseInt(a + d + b) == if |d| <= MaxStrDigits then Some(DecimalValue(d)) else None
  {
    DigitNotSpace(d[0]);
    DigitNotSpace(d[|d| - 1]);
    StripAround(a, d, b);
    UnsignedDecimal(d);
  }

  /** Digits with no sign are read by the unsigned branch of `SignedDecimal`. */
  lemma UnsignedDecimal(d: string)
    requires IsDigits(d)
    ensures SignedDecimal(d) == if |d| <= MaxStrDigits then Some(DecimalValue(d)) else None
  {
  }

  /**
   * `int` reads a minus sign followed by a digit string as the negated value; the sign does
   * not count towards the limit.
   */
  lemma ParseIntSigned(d: string)
    requires IsDigits(d)
    ensures ParseInt("-" + d) == if |d| <= MaxStrDigits then Some(-(DecimalValue(d) as int)) else None
  {
    var neg := "-" + d;
    assert neg[1..] == d;
    assert neg[|neg| - 1] == d[|d| - 1];
    DigitNotSpace(d[|d| - 1]);
    StripKeeps(neg);
    if |d| <= MaxStrDigits {
      ShortNegative(neg, d);
    } else {
      LongNegative(neg, d);
    }
  }

  /** A minus sign and at most `MaxStrDigits` digits are read as the negated digits. */
  lemma ShortNegative(t: string, d: string)
    requires t == "-" + d && IsDigits(d) && |d| <= MaxStrDigits
    ensures SignedDecimal(t) == Some(-(DecimalValue(d) as int))
  {
    assert t[1..] == d;
  }

  /** A minus sign and more than `MaxStrDigits` digits are refused. */
  lemma LongNegative(t: string, d: string)
    requires t == "-" + d && IsDigits(d) && |d| > MaxStrDigits
    ensures SignedDecimal(t).None?
  {
    assert t[1..] == d;
  }

  /**
   * `int` reads back every number of at most `MaxStrDigits` digits the integration writes,
   * bare or with whitespace of any kind and length around it, and refuses longer ones.
   */
  lemma ParseIntRoundTrip(n: nat, a: string, b: string)
    ensures ParseInt(DecimalText(n)) == if |DecimalText(n)| <= MaxStrDigits then Some(n) else None
    ensures AllSpace(a) && AllSpace(b) ==>
      ParseInt(a + DecimalText(n) + b) == if |DecimalText(n)| <= MaxStrDigits then Some(n) else None
  {
    DecimalRoundTrip(n);
    ParseIntDigits(DecimalText(n));
    if AllSpace(a) && AllSpace(b) {
      ParseIntPadded(a, DecimalText(n), b);
    }
  }

  /**
   * The HVAC mode shown for a device `mode` text: `DAIKIN_MODE_TO_HA.get(int(text), AUTO)`,
   * or `None` where `int` raises.
   */
  function HvacModeOf(code: string): (mode: Option<string>)
    ensures mode.None? <==> ParseInt(code).None?
    ensures mode.Some? ==> mode.value in HaModeToDaikin && mode.value != ModeOff
    ensures ParseInt(code).Some? && ParseInt(code).value in DaikinModeToHa ==>
      mode == Some(DaikinModeToHa[ParseInt(code).value])
    ensures ParseInt(code).Some? && ParseInt(code).value !in DaikinModeToHa ==> mode == Some(ModeAuto)
  {
    match ParseInt(code)
    case None => None
    case Some(k) => Some(if k in DaikinModeToHa then DaikinModeToHa[k] else ModeAuto)
  }

  /** A `mode` of more than `MaxStrDigits` digits is unreadable, however small its value. */
  lemma OverlongModeUnreadable(code: string)
    requires IsDigits(code) && |code| > MaxStrDigits
    ensures HvacModeOf(code).None?
  {
    ParseIntDigits(code);
  }

  /**
   * The `mode` text sent for an HVAC mode: `HA_MODE_TO_DAIKIN.get(mode, "1")`, the integer
   * code being written in decimal by the query builder.
   */
  function DaikinModeFor(mode: string): (code: string)
    ensures code in {"0", "1", "2", "3", "4"}
    ensures mode in HaModeToDaikin ==> code == DecimalText(HaModeToDaikin[mode])
    ensures mode !in HaModeToDaikin ==> code == "1"
  {
    if mode in HaModeToDaikin then DecimalText(HaModeToDaikin[mode]) else "1"
  }

  /** The fan mode shown for an `f_rate` code: `DAIKIN_FAN_TO_HA.get(code, "auto")`. */
  function FanModeOf(rate: string): (fan: string)
    ensures fan in HaFanToDaikin
    ensures rate in DaikinFanToHa ==> fan == DaikinFanToHa[rate]
    ensures rate !in DaikinFanToHa ==> fan == FanAuto
  {
    if rate in DaikinFanToHa then DaikinFanToHa[rate] else FanAuto
  }

  /** The `f_rate` code sent for a fan mode: `HA_FAN_TO_DAIKIN.get(fan, "A")`. */
  function FanRateFor(fan: string): (rate: string)
    ensures rate in DaikinFanToHa
    ensures fan in HaFanToDaikin ==> rate == HaFanToDaikin[fan]
    ensures fan !in HaFanToDaikin ==> rate == "A"
  {
    if fan in HaFanToDaikin then HaFanToDaikin[fan] else "A"
  }

  /** Sending a known HVAC mode and reading its code back shows the same mode. */
  lemma HvacModeRoundTrip(mode: string)
    requires mode in HaModeToDaikin
    ensures HvacModeOf(DaikinModeFor(mode)) == Some(mode)
  {
    ModeTablesInverse();
    ParseIntRoundTrip(HaModeToDaikin[mode], "", "");
  }

  /** Reading a canonical code and sending the shown mode back sends the same code. */
  lemma ModeCodeRoundTrip(k: nat)
    requires k in DaikinModeToHa
    ensures HvacModeOf(DecimalText(k)).Some?
    ensures DaikinModeFor(HvacModeOf(DecimalText(k)).value) == DecimalText(k)
  {
    ModeTablesInverse();
    ParseIntRoundTrip(k, "", "");
  }

  /** Fan modes and fan codes round-trip in both directions. */
  lemma FanRoundTrip(fan: string, rate: string)
    ensures fan in HaFanToDaikin ==> FanModeOf(FanRateFor(fan)) == fan
    ensures rate in DaikinFanToHa ==> FanRateFor(FanModeOf(rate)) == rate
  {
    FanTablesInverse();
  }
}

=== FILE: control.dfy ===
/**
 * The read-modify-write merge the entities perform before every change
 * (custom_components/daikin_local/climate.py and switch.py): fetch the control map, copy
 * the fields the change does not target from it (or from the method's fallbacks), override
 * the targeted ones, and send the full six-field set through `set_control_info`.
 */
module Control {
  import opened Optional
  import opened Codec
  import opened Codes
  import opened Client
  import opened Text

  /** The six fields of the device's control state. */
  datatype Field = Pow | Mode | Stemp | Shum | FRate | FDir {
    /** The field's name on the wire. */
    function Name(): string {
      match this
      case Pow => "pow"
      case Mode => "mode"
      case Stemp => "stemp"
      case Shum => "shum"
      case FRate => "f_rate"
      case FDir => "f_dir"
    }
  }

  /** A complete control state: the six values a set request carries. */
  datatype Settings = Settings(pow: string, mode: string, stemp: string, shum: string, fRate: string, fDir: string)
  {
    function Get(f: Field): string {
      match f
      case Pow => pow
      case Mode => mode
      case Stemp => stemp
      case Shum => shum
      case FRate => fRate
      case FDir => fDir
    }

    /** The keyword arguments the entities pass to `set_control_info`. */
    function Kwargs(): map<string, string> {
      map["pow" := pow, "mode" := mode, "stemp" := stemp, "shum" := shum, "f_rate" := fRate, "f_dir" := fDir]
    }

    /** The six fields in the order the set endpoint receives them. */
    function Ordered(): Pairs {
      [("pow", pow), ("mode", mode), ("stemp", stemp), ("shum", shum), ("f_rate", fRate), ("f_dir", fDir)]
    }
  }

  /** Passing all six fields by keyword sends exactly those six values, in the fixed order. */
  lemma KwargsSendAsGiven(s: Settings)
    ensures SetParams(s.Kwargs()) == s.Ordered()
  {
  }

  /** A fetched map that carries all six control fields. */
  ghost predicate Complete(m: Response) {
    forall f: Field :: f.Name() in m
  }

  /** The control state a complete fetched map describes. */
  function Observed(m: Response): (s: Settings)
    requires Complete(m)
    ensures forall f: Field :: s.Get(f) == m[f.Name()]
  {
    assert Pow.Name() in m && Mode.Name() in m && Stemp.Name() in m;
    assert Shum.Name() in m && FRate.Name() in m && FDir.Name() in m;
    Settings(m["pow"], m["mode"], m["stemp"], m["shum"], m["f_rate"], m["f_dir"])
  }

  /** Every field is either overridden by the change or has a fallback. */
  predicate Covers(fallback: map<Field, string>, overrides: map<Field, string>) {
    && (Pow in overrides || Pow in fallback)
    && (Mode in overrides || Mode in fallback)
    && (Stemp in overrides || Stemp in fallback)
    && (Shum in overrides || Shum in fallback)
    && (FRate in overrides || FRate in fallback)
    && (FDir in overrides || FDir in fallback)
  }

  /** Under `Covers`, every field is overridden or has a fallback. */
  lemma CoversEachField(fallback: map<Field, string>, overrides: map<Field, string>)
    requires Covers(fallback, overrides)
    ensures forall f: Field :: f in overrides || f in fallback
  {
    forall f: Field
      ensures f in overrides || f in fallback
    {
      match f
      case Pow =>
      case Mode =>
      case Stemp =>
      case Shum =>
      case FRate =>
      case FDir =>
    }
  }

  /** The value a merge sends for one field. */
  function Pick(m: Response, fallback: map<Field, string>, overrides: map<Field, string>, f: Field): string
    requires f in overrides || f in fallback
  {
    if f in overrides then overrides[f] else Lookup(m, f.Name(), fallback[f])
  }

  /**
   * The six values one entity method sends: each overridden field takes its new value, every
   * other field the fetched value (`control_info.get(name, fallback)`).
   */
  function Merge(m: Response, fallback: map<Field, string>, overrides: map<Field, string>): (s: Settings)
    requires Covers(fallback, overrides)
    ensures forall f: Field :: f in overrides ==> s.Get(f) == overrides[f]
    ensures forall f: Field :: f !in overrides && f.Name() in m ==> s.Get(f) == m[f.Name()]
    ensures forall f: Field :: f !in overrides && f.Name() !in m ==> f in fallback && s.Get(f) == fallback[f]
  {
    CoversEachField(fallback, overrides);
    PickEachField(m, fallback, overrides);
    Picked(m, fallback, overrides)
  }

  function Picked(m: Response, fallback: map<Field, string>, overrides: map<Field, string>): Settings
    requires Covers(fallback, overrides)
  {
    Settings(Pick(m, fallback, overrides, Pow), Pick(m, fallback, overrides, Mode),
             Pick(m, fallback, overrides, Stemp), Pick(m, fallback, overrides, Shum),
             Pick(m, fallback, overrides, FRate), Pick(m, fallback, overrides, FDir))
  }

  lemma PickEachField(m: Response, fallback: map<Field, string>, overrides: map<Field, string>)
    requires Covers(fallback, overrides)
    ensures forall f: Field :: (f in overrides || f in fallback) &&
                               Picked(m, fallback, overrides).Get(f) == Pick(m, fallback, overrides, f)
  {
    forall f: Field
      ensures (f in overrides || f in fallback) &&
              Picked(m, fallback, overrides).Get(f) == Pick(m, fallback, overrides, f)
    {
      match f
      case Pow =>
      case Mode =>
      case Stemp =>
      case Shum =>
      case FRate =>
      case FDir =>
    }
  }

  /** `after` differs from `before` at most in the fields `changed`. */
  ghost predicate OnlyChanged(before: Settings, after: Settings, changed: set<Field>) {
    forall f: Field :: f !in changed ==> after.Get(f) == before.Get(f)
  }

  /**
   * Nothing else changes: when the fetched map holds all six fields, a merge resends every
   * field it does not override verbatim.
   */
  lemma MergeChangesOnlyTargets(m: Response, fallback: map<Field, string>, overrides: map<Field, string>)
    requires Covers(fallback, overrides)
    requires Complete(m)
    ensures OnlyChanged(Observed(m), Merge(m, fallback, overrides), overrides.Keys)
    ensures forall f: Field :: f in overrides ==> Merge(m, fallback, overrides).Get(f) == overrides[f]
  {
  }

  /** A merge with nothing to override resends the observed state unchanged. */
  lemma EmptyMergeIsNoOp(m: Response, fallback: map<Field, string>)
    requires Covers(fallback, map[])
    requires Complete(m)
    ensures Merge(m, fallback, map[]) == Observed(m)
  {
  }

  // ---------------------------------------------------------------------------
  // The shared fetch-merge-set sequence
  // ---------------------------------------------------------------------------

  /** The result of one read-modify-write: what was sent, whether an exception escaped, whether the set applied. */
  datatype Write = Write(client: Client, sent: seq<Invocation>, raised: Option<string>, applied: bool)

  /** The set request that carries `s` (the entities always pass all six fields). */
  function SetRequest(c: Client, s: Settings, t: Transport): (e: Exchange<Outcome<bool>>)
    ensures (e.client, e.sent) == Issued(c, EndpointSetControl, s.Ordered(), t)
    ensures e.result.Raised? <==> !Ready(c, t)
    ensures e.result.Raised? ==> e.result.message == t.newConfig.message
    ensures e.result == Ok(true) <==> Ready(c, t) && SetAccepted(t.curl)
  {
    KwargsSendAsGiven(s);
    SetControlInfo(c, s.Kwargs(), t)
  }

  /**
   * Fetch the control map, merge, and set. A failing fetch raises out of the entity method
   * (the source has no handler around it) and no set is sent; a failing set is only `false`.
   * A set raises only when the configuration file cannot be created, which cannot happen
   * after a successful fetch: the fetch created it.
   */
  function ReadModifyWrite(c: Client, fallback: map<Field, string>, overrides: map<Field, string>,
                           read: Transport, write: Transport): (w: Write)
    requires Covers(fallback, overrides)
    ensures GetControlInfo(c, read).sent <= w.sent
    ensures w.raised.Some? <==> GetControlInfo(c, read).result.Raised?
    ensures GetControlInfo(c, read).result.Raised? ==>
      w == Write(GetControlInfo(c, read).client, GetControlInfo(c, read).sent,
                 Some(GetControlInfo(c, read).result.message), false)
    ensures GetControlInfo(c, read).result.Ok? ==>
      var e := SetRequest(GetControlInfo(c, read).client,
                          Merge(GetControlInfo(c, read).result.value, fallback, overrides), write);
      w == Write(e.client, GetControlInfo(c, read).sent + e.sent, None, SetAccepted(write.curl))
  {
    var g := GetControlInfo(c, read);
    match g.result
    case Raised(message) => Write(g.client, g.sent, Some(message), false)
    case Ok(m) =>
      var e := SetRequest(g.client, Merge(m, fallback, overrides), write);
      match e.result
      case Raised(message) => Write(e.client, g.sent + e.sent, Some(message), false)
      case Ok(accepted) => Write(e.client, g.sent + e.sent, None, accepted)
  }

  /**
   * The URL of a set request: the set endpoint, then the six fields in their fixed order and
   * the key last. When no value contains `&` (and no name `=`), reading the query back gives
   * exactly that list.
   */
  lemma SetRequestQuery(c: Client, s: Settings, t: Transport)
    ensures forall run <- SetRequest(c, s, t).sent ::
      run.url == c.BaseUrl() + EndpointSetControl + "?" + RenderQuery(s.Ordered() + [("key", c.key)])
    ensures QuerySafe(s.Ordered() + [("key", c.key)]) ==>
      ReadQuery(RenderQuery(s.Ordered() + [("key", c.key)])) == s.Ordered() + [("key", c.key)]
  {
    var ps := s.Ordered();
    assert KeysOf(ps) == ["pow", "mode", "stemp", "shum", "f_rate", "f_dir"];
    SetEntryAppends(ps, "key", c.key);
    if QuerySafe(ps + [("key", c.key)]) {
      QueryRoundTrip(ps + [("key", c.key)]);
    }
  }
}

=== FILE: entity.dfy ===
/**
 * What the platform entities (climate, switch, sensor) share: the outcome of one entity
 * call, the unique-id scheme, and the shape of every change they make to the device.
 */
module Entity {
  import opened Optional
  import opened Codec
  import opened Client
  import opened Control

  /** How an entity call ends: normally, with an error it logs and swallows, or with an exception. */
  datatype Completion = Completed | Logged(message: string) | Propagated(message: string)

  /** One entity call: the shared client afterwards, the entity's state, and the requests issued. */
  datatype Step<+S> = Step(client: Client, state: S, sent: seq<Invocation>, completion: Completion)

  /** `f"{entry_id}_{kind}"`, the unique id of every entity. */
  function UniqueId(entryId: string, kind: string): string {
    entryId + "_" + kind
  }

  /** Within one config entry, the unique id identifies the entity kind. */
  lemma UniqueIdInjective(entryId: string, kind1: string, kind2: string)
    ensures UniqueId(entryId, kind1) == UniqueId(entryId, kind2) <==> kind1 == kind2
  {
    var n := |entryId| + 1;
    if UniqueId(entryId, kind1) == UniqueId(entryId, kind2) {
      assert UniqueId(entryId, kind1)[n..] == kind1;
      assert UniqueId(entryId, kind2)[n..] == kind2;
    }
  }

  /** The kinds the integration creates for one entry. */
  const EntityKinds: seq<string> :=
    ["climate", "power", "fan_direction", "temperature", "humidity", "error_status", "firmware_version"]

  /** No two entities of one entry share a unique id. */
  lemma UniqueIdsDistinct(entryId: string)
    ensures forall i, j :: 0 <= i < j < |EntityKinds| ==>
      UniqueId(entryId, EntityKinds[i]) != UniqueId(entryId, EntityKinds[j])
  {
    forall i, j | 0 <= i < j < |EntityKinds|
      ensures UniqueId(entryId, EntityKinds[i]) != UniqueId(entryId, EntityKinds[j])
    {
      UniqueIdInjective(entryId, EntityKinds[i], EntityKinds[j]);
    }
  }

  /**
   * A change by read-modify-write: fetch the control map first; if the fetch raises, the
   * exception leaves the entity method, nothing is sent and the state stays `before`;
   * otherwise send the merge of the fetched map with `overrides` (fallbacks `fallback`) and
   * move to `after` exactly when the device accepts it. This is the one description of a
   * change that the climate and switch entities share: each of their methods promises it
   * with its own fallbacks and overrides.
   */
  ghost predicate Performs<S>(r: Step<S>, c: Client, read: Transport, write: Transport,
                              fallback: map<Field, string>, overrides: map<Field, string>, before: S, after: S)
    requires Covers(fallback, overrides)
  {
    var g := GetControlInfo(c, read);
    && (g.result.Raised? ==> r == Step(g.client, before, g.sent, Propagated(g.result.message)))
    && (g.result.Ok? ==>
          var e := SetRequest(g.client, Merge(g.result.value, fallback, overrides), write);
          && r == Step(e.client, if SetAccepted(write.curl) then after else before, g.sent + e.sent, Completed))
  }

  /** Run the read-modify-write and update the entity state only when the set was accepted. */
  function Change<S>(c: Client, read: Transport, write: Transport,
                     fallback: map<Field, string>, overrides: map<Field, string>, before: S, after: S): (r: Step<S>)
    requires Covers(fallback, overrides)
    ensures Performs(r, c, read, write, fallback, overrides, before, after)
    ensures r.state == before || (r.state == after && SetAccepted(write.curl))
  {
    var w := ReadModifyWrite(c, fallback, overrides, read, write);
    var completion := if w.raised.Some? then Propagated(w.raised.value) else Completed;
    Step(w.client, if w.applied then after else before, w.sent, completion)
  }

  /**
   * A change on a client that has no configuration file yet, when creating one fails, raises
   * out of the entity method before any run: nothing is sent and the state stays `before`.
   */
  lemma ChangeWithoutConfigFile<S>(c: Client, read: Transport, write: Transport,
                                   fallback: map<Field, string>, overrides: map<Field, string>, before: S, after: S)
    requires Covers(fallback, overrides)
    requires c.sslConfig.None? && read.newConfig.CreateFailed?
    ensures Change(c, read, write, fallback, overrides, before, after) ==
      Step(c, before, [], Propagated(read.newConfig.message))
  {
  }

  /** A poll that swallows its error: on a failed fetch the state is `onFailure`. */
  function Poll<S>(c: Client, endpoint: string, t: Transport, onFailure: S, project: Response -> S): (r: Step<S>)
    requires endpoint in {Codes.EndpointBasicInfo, Codes.EndpointControlInfo, Codes.EndpointSensorInfo}
    ensures var g := GetInfo(c, endpoint, t);
      && r.client == g.client && r.sent == g.sent
      && (g.result.Ok? ==> r.state == project(g.result.value) && r.completion == Completed)
      && (g.result.Raised? ==> r.state == onFailure && r.completion == Logged(g.result.message))
  {
    var g := GetInfo(c, endpoint, t);
    match g.result
    case Ok(data) => Step(g.client, project(data), g.sent, Completed)
    case Raised(message) => Step(g.client, onFailure, g.sent, Logged(message))
  }
}

=== FILE: optional.dfy ===
/** The optional value used wherever the source reads `dict.get(...)` or leaves an attribute as `None`. */
module Optional {

  datatype Option<+T> = None | Some(value: T)

  /** Python's `m.get(k, default)` on a string-keyed dictionary. */
  function Lookup<K, V>(m: map<K, V>, k: K, default: V): (r: V)
    ensures k in m ==> r == m[k]
    ensures k !in m ==> r == default
  {
    if k in m then m[k] else default
  }

  /** Python's `m.get(k)`: the value when the key is present, `None` otherwise. */
  function Find<K, V>(m: map<K, V>, k: K): (r: Option<V>)
    ensures r.Some? <==> k in m
    ensures r.Some? ==> r.value == m[k]
  {
    if k in m then Some(m[k]) else None
  }
}

=== FILE: sensors.dfy ===
/**
 * The four sensor entities (custom_components/daikin_local/sensor.py): room temperature and
 * humidity from the sensor map, error status and firmware version from the basic map. Each
 * is a poll whose failure is logged and replaced by a fixed value.
 */
module Sensors {
  import opened Optional
  import opened Codec
  import opened Client
  import opened Entity
  import Climate

  /** `DaikinTemperatureSensor.async_update`: `htemp` of the sensor map; nothing when missing or on failure. */
  function TemperatureUpdate(c: Client, t: Transport): (r: Step<Option<string>>)
    ensures r.sent == GetSensorInfo(c, t).sent
    ensures r.client == GetSensorInfo(c, t).client
    ensures Fetched(c, t) ==> r.completion == Completed && r.state == Find(ParseBody(t.curl.stdout), "htemp")
    ensures !Fetched(c, t) ==> r.completion.Logged? && r.state == None
  {
    Poll(c, Codes.EndpointSensorInfo, t, None, (m: Response) => Find(m, "htemp"))
  }

  /** `DaikinHumiditySensor.async_update`: `hhum` of the sensor map; nothing when missing or on failure. */
  function HumidityUpdate(c: Client, t: Transport): (r: Step<Option<string>>)
    ensures r.sent == GetSensorInfo(c, t).sent
    ensures r.client == GetSensorInfo(c, t).client
    ensures Fetched(c, t) ==> r.completion == Completed && r.state == Find(ParseBody(t.curl.stdout), "hhum")
    ensures !Fetched(c, t) ==> r.completion.Logged? && r.state == None
  {
    Poll(c, Codes.EndpointSensorInfo, t, None, (m: Response) => Find(m, "hhum"))
  }

  /** What the error-status sensor can know: no error, an error code, no `err` field, or no answer. */
  datatype ErrorStatus = NoError | ErrorCode(code: string) | Unknown | ConnectionError

  /** The status behind a fetched basic map: code `0` means no error. */
  function StatusOf(m: Response): (s: ErrorStatus)
    ensures "err" !in m <==> s == Unknown
    ensures s == NoError <==> "err" in m && m["err"] == "0"
    ensures s.ErrorCode? ==> "err" in m && s.code == m["err"] && s.code != "0"
    ensures !s.ConnectionError?
  {
    if "err" !in m then Unknown
    else if m["err"] == "0" then NoError
    else ErrorCode(m["err"])
  }

  const NoErrorText := "No Error"
  const ErrorCodePrefix := "Error Code: "
  const UnknownText := "Unknown"
  const ConnectionErrorText := "Connection Error"

  /** The text the sensor shows for a status. */
  function Display(s: ErrorStatus): string {
    match s
    case NoError => NoErrorText
    case ErrorCode(code) => ErrorCodePrefix + code
    case Unknown => UnknownText
    case ConnectionError => ConnectionErrorText
  }

  /** Reads a shown text back as the status it came from. */
  function ReadStatus(text: string): ErrorStatus {
    if text == NoErrorText then NoError
    else if text == UnknownText then Unknown
    else if text == ConnectionErrorText then ConnectionError
    else if |ErrorCodePrefix| <= |text| && text[..|ErrorCodePrefix|] == ErrorCodePrefix then ErrorCode(text[|ErrorCodePrefix|..])
    else Unknown
  }

  /**
   * The shown text determines the status: `Display` loses nothing, so four different
   * outcomes never look alike on the dashboard.
   */
  lemma DisplayRoundTrip(s: ErrorStatus)
    ensures ReadStatus(Display(s)) == s
  {
    match s
    case ErrorCode(code) =>
      var text := ErrorCodePrefix + code;
      assert text[..|ErrorCodePrefix|] == ErrorCodePrefix;
      assert text[|ErrorCodePrefix|..] == code;
      assert |text| != |NoErrorText|;
      assert text != UnknownText by { assert text[0] != UnknownText[0]; }
      assert text != ConnectionErrorText by { assert text[0] != ConnectionErrorText[0]; }
    case _ =>
  }

  lemma DisplayInjective(s1: ErrorStatus, s2: ErrorStatus)
    ensures Display(s1) == Display(s2) <==> s1 == s2
  {
    DisplayRoundTrip(s1);
    DisplayRoundTrip(s2);
  }

  /**
   * `DaikinErrorStatusSensor.async_update`: the text of the status behind `err`; `Connection
   * Error` when the fetch fails.
   */
  function ErrorStatusUpdate(c: Client, t: Transport): (r: Step<string>)
    ensures r.sent == GetBasicInfo(c, t).sent
    ensures r.client == GetBasicInfo(c, t).client
    ensures Fetched(c, t) ==> r.completion == Completed && r.state == Display(StatusOf(ParseBody(t.curl.stdout)))
    ensures !Fetched(c, t) ==> r.completion.Logged? && r.state == Display(ConnectionError)
    ensures ReadStatus(r.state).ConnectionError? <==> !Fetched(c, t)
  {
    var r := Poll(c, Codes.EndpointBasicInfo, t, ConnectionErrorText, (m: Response) => Display(StatusOf(m)));
    assert ReadStatus(r.state).ConnectionError? <==> !Fetched(c, t) by {
      if Fetched(c, t) {
        DisplayRoundTrip(StatusOf(ParseBody(t.curl.stdout)));
      } else {
        DisplayRoundTrip(ConnectionError);
      }
    }
    r
  }

  /** `DaikinFirmwareVersionSensor.async_update`: `ver` as given; `Unknown` when missing or on failure. */
  function FirmwareUpdate(c: Client, t: Transport): (r: Step<string>)
    ensures r.sent == GetBasicInfo(c, t).sent
    ensures r.client == GetBasicInfo(c, t).client
    ensures Fetched(c, t) ==> r.completion == Completed && r.state == Lookup(ParseBody(t.curl.stdout), "ver", "Unknown")
    ensures !Fetched(c, t) ==> r.completion.Logged? && r.state == "Unknown"
  {
    Poll(c, Codes.EndpointBasicInfo, t, "Unknown", (m: Response) => Lookup(m, "ver", "Unknown"))
  }

  /**
   * The sensors agree with the climate entity on the same fetched maps: each shows the
   * reading the climate entity refreshes from the same field when that field is present,
   * provided the climate projection gets past the `mode` conversion.
   */
  lemma SensorsAgreeWithClimate(st: Climate.Climate, control: Response, sensor: Response, basic: Response)
    requires !Climate.ModeUnreadable(control)
    ensures var p := Climate.Project(st, control, sensor, basic);
      && ("htemp" in sensor ==> p.currentTemperature == Find(sensor, "htemp"))
      && ("hhum" in sensor ==> p.currentHumidity == Find(sensor, "hhum"))
      && ("ver" in basic ==> p.firmwareVersion == Some(Lookup(basic, "ver", "Unknown")))
  {
  }
}

=== FILE: switches.dfy ===
/**
 * The two switch entities (custom_components/daikin_local/switch.py): power and fan-direction
 * swing. Each polls the control map for its one field and changes the device by
 * read-modify-write, overriding only that field.
 */
module Switches {
  import opened Optional
  import opened Codec
  import opened Client
  import opened Control
  import opened Entity
  import Climate

  /** `is_on`; `None` until the first poll, as the entity never sets it on construction. */
  type SwitchState = Option<bool>

  /** A switch field reads as on exactly when it is present and equal to `1`. */
  predicate FieldOn(m: Response, key: string) {
    key in m && m[key] == "1"
  }

  /**
   * The poll of a switch: a fetched map sets `is_on` from `key`; a missing field and a failed
   * fetch (logged) both read as off.
   */
  function SwitchUpdate(c: Client, key: string, t: Transport): (r: Step<SwitchState>)
    ensures r.sent == GetControlInfo(c, t).sent && r.client == GetControlInfo(c, t).client
    ensures r.state.Some?
    ensures r.state == Some(true) <==>
      Fetched(c, t) && key in ParseBody(t.curl.stdout) && ParseBody(t.curl.stdout)[key] == "1"
    ensures r.completion.Logged? <==> GetControlInfo(c, t).result.Raised?
    ensures !r.completion.Propagated?
  {
    Poll(c, Codes.EndpointControlInfo, t, Some(false), (m: Response) => Some(FieldOn(m, key)))
  }

  /** `DaikinPowerSwitch.async_update`: `is_on` follows `pow`. */
  function PowerUpdate(c: Client, t: Transport): (r: Step<SwitchState>)
    ensures r.state == Some(true) <==>
      Fetched(c, t) && FieldOn(ParseBody(t.curl.stdout), "pow")
    ensures Fetched(c, t) ==>
      r.completion == Completed && r.state == Some(FieldOn(ParseBody(t.curl.stdout), "pow"))
    ensures !Fetched(c, t) ==> r.completion.Logged? && r.state == Some(false)
  {
    SwitchUpdate(c, "pow", t)
  }

  /** `DaikinFanDirectionSwitch.async_update`: `is_on` follows `f_dir`. */
  function FanDirectionUpdate(c: Client, t: Transport): (r: Step<SwitchState>)
    ensures r.state == Some(true) <==>
      Fetched(c, t) && FieldOn(ParseBody(t.curl.stdout), "f_dir")
    ensures Fetched(c, t) ==>
      r.completion == Completed && r.state == Some(FieldOn(ParseBody(t.curl.stdout), "f_dir"))
    ensures !Fetched(c, t) ==> r.completion.Logged? && r.state == Some(false)
  {
    SwitchUpdate(c, "f_dir", t)
  }

  /** Fallbacks of the power switch turning on (it overrides `pow`). */
  const PowerOnFallback: map<Field, string> := map[Mode := "1", Stemp := "22.0", Shum := "0", FRate := "A", FDir := "0"]

  /** Fallbacks of the power switch turning off: as turning on, except that `mode` defaults to `0`. */
  const PowerOffFallback: map<Field, string> := map[Mode := "0", Stemp := "22.0", Shum := "0", FRate := "A", FDir := "0"]

  /** Fallbacks of the fan-direction switch (it overrides `f_dir`). */
  const DirectionFallback: map<Field, string> := map[Pow := "1", Mode := "1", Stemp := "22.0", Shum := "0", FRate := "A"]

  /** `DaikinPowerSwitch.async_turn_on`: send `pow=1`; on acceptance the switch is on. */
  function PowerTurnOn(st: SwitchState, c: Client, read: Transport, write: Transport): (r: Step<SwitchState>)
    ensures Performs(r, c, read, write, PowerOnFallback, map[Pow := "1"], st, Some(true))
    ensures r.state == st || (r.state == Some(true) && SetAccepted(write.curl))
  {
    Change(c, read, write, PowerOnFallback, map[Pow := "1"], st, Some(true))
  }

  /** `DaikinPowerSwitch.async_turn_off`: send `pow=0`; on acceptance the switch is off. */
  function PowerTurnOff(st: SwitchState, c: Client, read: Transport, write: Transport): (r: Step<SwitchState>)
    ensures Performs(r, c, read, write, PowerOffFallback, map[Pow := "0"], st, Some(false))
    ensures r.state == st || (r.state == Some(false) && SetAccepted(write.curl))
  {
    Change(c, read, write, PowerOffFallback, map[Pow := "0"], st, Some(false))
  }

  /** `DaikinFanDirectionSwitch.async_turn_on`: send `f_dir=1`; on acceptance the switch is on. */
  function FanDirectionTurnOn(st: SwitchState, c: Client, read: Transport, write: Transport): (r: Step<SwitchState>)
    ensures Performs(r, c, read, write, DirectionFallback, map[FDir := "1"], st, Some(true))
    ensures r.state == st || (r.state == Some(true) && SetAccepted(write.curl))
  {
    Change(c, read, write, DirectionFallback, map[FDir := "1"], st, Some(true))
  }

  /** `DaikinFanDirectionSwitch.async_turn_off`: send `f_dir=0`; on acceptance the switch is off. */
  function FanDirectionTurnOff(st: SwitchState, c: Client, read: Transport, write: Transport): (r: Step<SwitchState>)
    ensures Performs(r, c, read, write, DirectionFallback, map[FDir := "0"], st, Some(false))
    ensures r.state == st || (r.state == Some(false) && SetAccepted(write.curl))
  {
    Change(c, read, write, DirectionFallback, map[FDir := "0"], st, Some(false))
  }

  // ---------------------------------------------------------------------------
  // Properties across calls
  // ---------------------------------------------------------------------------

  /**
   * What each switch sends after a successful fetch: its own field as requested and the
   * other five as fetched, or their fallbacks when missing.
   */
  lemma PowerSends(m: Response)
    ensures Merge(m, PowerOnFallback, map[Pow := "1"]) ==
      Settings("1", Lookup(m, "mode", "1"), Lookup(m, "stemp", "22.0"), Lookup(m, "shum", "0"),
               Lookup(m, "f_rate", "A"), Lookup(m, "f_dir", "0"))
    ensures Merge(m, PowerOffFallback, map[Pow := "0"]) ==
      Settings("0", Lookup(m, "mode", "0"), Lookup(m, "stemp", "22.0"), Lookup(m, "shum", "0"),
               Lookup(m, "f_rate", "A"), Lookup(m, "f_dir", "0"))
  {
    var on := Merge(m, PowerOnFallback, map[Pow := "1"]);
    assert on.mode == on.Get(Mode) && on.stemp == on.Get(Stemp) && on.shum == on.Get(Shum);
    assert on.fRate == on.Get(FRate) && on.fDir == on.Get(FDir);
    var off := Merge(m, PowerOffFallback, map[Pow := "0"]);
    assert off.mode == off.Get(Mode) && off.stemp == off.Get(Stemp) && off.shum == off.Get(Shum);
    assert off.fRate == off.Get(FRate) && off.fDir == off.Get(FDir);
  }

  lemma DirectionSends(m: Response, value: string)
    ensures Merge(m, DirectionFallback, map[FDir := value]) ==
      Settings(Lookup(m, "pow", "1"), Lookup(m, "mode", "1"), Lookup(m, "stemp", "22.0"), Lookup(m, "shum", "0"),
               Lookup(m, "f_rate", "A"), value)
  {
    var s := Merge(m, DirectionFallback, map[FDir := value]);
    assert s.pow == s.Get(Pow) && s.mode == s.Get(Mode) && s.stemp == s.Get(Stemp);
    assert s.shum == s.Get(Shum) && s.fRate == s.Get(FRate) && s.fDir == s.Get(FDir);
  }

  /** On a complete fetch each switch resends five fields verbatim and changes only its own. */
  lemma SwitchesTouchOnlyTheirField(m: Response)
    requires Complete(m)
    ensures OnlyChanged(Observed(m), Merge(m, PowerOnFallback, map[Pow := "1"]), {Pow})
    ensures OnlyChanged(Observed(m), Merge(m, PowerOffFallback, map[Pow := "0"]), {Pow})
    ensures OnlyChanged(Observed(m), Merge(m, DirectionFallback, map[FDir := "1"]), {FDir})
    ensures OnlyChanged(Observed(m), Merge(m, DirectionFallback, map[FDir := "0"]), {FDir})
  {
    MergeChangesOnlyTargets(m, PowerOnFallback, map[Pow := "1"]);
    MergeChangesOnlyTargets(m, PowerOffFallback, map[Pow := "0"]);
    MergeChangesOnlyTargets(m, DirectionFallback, map[FDir := "1"]);
    MergeChangesOnlyTargets(m, DirectionFallback, map[FDir := "0"]);
  }

  /**
   * A switch change moves `is_on` only to the requested value and only when the device
   * accepts; a rejected set, or a fetch that raises, leaves it as it was.
   */
  lemma TurnMovesOnlyOnAcceptance(st: SwitchState, c: Client, read: Transport, write: Transport)
    ensures var r := PowerTurnOn(st, c, read, write);
      r.state != st ==> r.state == Some(true) && SetAccepted(write.curl)
    ensures var r := PowerTurnOff(st, c, read, write);
      r.state != st ==> r.state == Some(false) && SetAccepted(write.curl)
    ensures var r := FanDirectionTurnOn(st, c, read, write);
      r.state != st ==> r.state == Some(true) && SetAccepted(write.curl)
    ensures var r := FanDirectionTurnOff(st, c, read, write);
      r.state != st ==> r.state == Some(false) && SetAccepted(write.curl)
  {
  }

  /**
   * The switches agree with the climate entity on the same control map: with `pow` present
   * the power switch is on exactly when the climate entity's power is, and with `f_dir`
   * present the fan-direction switch is on exactly when the climate's fan direction is `1`,
   * unless the climate projection stopped at an unreadable mode.
   */
  lemma SwitchesAgreeWithClimate(st: Climate.Climate, control: Response, sensor: Response, basic: Response)
    ensures "pow" in control ==> (FieldOn(control, "pow") <==> Climate.Project(st, control, sensor, basic).power)
    ensures "f_dir" in control && !Climate.ModeUnreadable(control) ==>
      (FieldOn(control, "f_dir") <==> Climate.Project(st, control, sensor, basic).fanDirection == "1")
  {
  }
}

=== FILE: text.dfy ===
/**
 * The handful of Python string operations the client relies on, written over `seq<char>`:
 * `str.strip()`, `str.split(sep)`, `sep.join(parts)`, `str.split(sep, 1)`, the `in`
 * substring test and decimal rendering of integers.
 */
module Text {

  /** The characters for which Python's `str.isspace()` holds. */
  predicate IsSpace(c: char) {
    || c == ' ' || c == '\t' || c == '\n' || c == '\r'
    || c == '\U{0B}' || c == '\U{0C}'
    || ('\U{1C}' <= c <= '\U{1F}')
    || c == '\U{85}' || c == '\U{A0}' || c == '\U{1680}'
    || ('\U{2000}' <= c <= '\U{200A}')
    || c == '\U{2028}' || c == '\U{2029}' || c == '\U{202F}' || c == '\U{205F}' || c == '\U{3000}'
  }

  ghost predicate AllSpace(s: string) {
    forall k :: 0 <= k < |s| ==> IsSpace(s[k])
  }

  /** Length of the longest all-whitespace prefix. */
  function LeadingSpace(s: string): (n: nat)
    ensures n <= |s|
    ensures AllSpace(s[..n])
    ensures n < |s| ==> !IsSpace(s[n])
  {
    if |s| > 0 && IsSpace(s[0]) then
      var n := 1 + LeadingSpace(s[1..]);
      assert s[..n] == [s[0]] + s[1..][..n - 1];
      n
    else 0
  }

  /** Length of the longest all-whitespace suffix. */
  function TrailingSpace(s: string): (n: nat)
    ensures n <= |s|
    ensures AllSpace(s[|s| - n..])
    ensures n < |s| ==> !IsSpace(s[|s| - n - 1])
  {
    if |s| > 0 && IsSpace(s[|s| - 1]) then
      var init := s[..|s| - 1];
      var n := 1 + TrailingSpace(init);
      assert s[|s| - n..] == init[|init| - (n - 1)..] + [s[|s| - 1]];
      n
    else 0
  }

  /** Python's `s.strip()`: the slice of `s` left after removing whitespace at both ends. */
  function Strip(s: string): (r: string)
    ensures |r| <= |s|
    ensures |r| > 0 ==> !IsSpace(r[0]) && !IsSpace(r[|r| - 1])
  {
    var i := LeadingSpace(s);
    var t := s[i..];
    var n := TrailingSpace(t);
    var r := t[..|t| - n];
    assert |r| > 0 ==> r[0] == t[0] && r[|r| - 1] == t[|t| - n - 1];
    r
  }

  /**
   * What `strip` removes is whitespace only, from the two ends: the result is the slice
   * starting after the leading whitespace, and everything after it is whitespace too.
   */
  lemma StripSlice(s: string)
    ensures LeadingSpace(s) + |Strip(s)| <= |s|
    ensures Strip(s) == s[LeadingSpace(s)..LeadingSpace(s) + |Strip(s)|]
    ensures AllSpace(s[..LeadingSpace(s)]) && AllSpace(s[LeadingSpace(s) + |Strip(s)|..])
  {
    var i := LeadingSpace(s);
    var t := s[i..];
    var n := TrailingSpace(t);
    var m := |t| - n;
    assert Strip(s) == t[..m];
    assert |Strip(s)| == m;
    SliceOfSuffix(s, i, m);
    assert AllSpace(t[m..]);
  }

  /** Cutting a suffix of `s` at `m` is cutting `s` at `i + m`. */
  lemma SliceOfSuffix(s: string, i: nat, m: nat)
    requires i + m <= |s|
    ensures s[i..][..m] == s[i..i + m]
    ensures s[i..][m..] == s[i + m..]
  {
  }

  /** Stripping text that neither starts nor ends with whitespace changes nothing. */
  lemma StripKeeps(s: string)
    requires |s| > 0 ==> !IsSpace(s[0]) && !IsSpace(s[|s| - 1])
    ensures Strip(s) == s
  {
  }

  lemma DigitNotSpace(c: char)
    requires '0' <= c <= '9'
    ensures !IsSpace(c)
  {
  }

  /** Whitespace before text that starts with a non-space character is exactly the leading whitespace. */
  lemma {:induction false} LeadingSpaceBefore(a: string, t: string)
    requires AllSpace(a) && |t| > 0 && !IsSpace(t[0])
    ensures LeadingSpace(a + t) == |a|
  {
    if |a| == 0 {
      assert a + t == t;
    } else {
      assert (a + t)[1..] == a[1..] + t;
      assert AllSpace(a[1..]) by {
        forall k | 0 <= k < |a[1..]| ensures IsSpace(a[1..][k]) { assert a[1..][k] == a[k + 1]; }
      }
      LeadingSpaceBefore(a[1..], t);
      assert (a + t)[0] == a[0];
    }
  }

  /** Whitespace after text that ends with a non-space character is exactly the trailing whitespace. */
  lemma {:induction false} TrailingSpaceAfter(t: string, b: string)
    requires AllSpace(b) && |t| > 0 && !IsSpace(t[|t| - 1])
    ensures TrailingSpace(t + b) == |b|
  {
    if |b| == 0 {
      assert t + b == t;
    } else {
      var s := t + b;
      var init := b[..|b| - 1];
      assert s[..|s| - 1] == t + init;
      assert AllSpace(init) by {
        forall k | 0 <= k < |init| ensures IsSpace(init[k]) { assert init[k] == b[k]; }
      }
      TrailingSpaceAfter(t, init);
      assert s[|s| - 1] == b[|b| - 1];
    }
  }

  /** Stripping whitespace of any kind and length from around text without edge whitespace restores it. */
  lemma StripAround(a: string, d: string, b: string)
    requires AllSpace(a) && AllSpace(b)
    requires |d| > 0 && !IsSpace(d[0]) && !IsSpace(d[|d| - 1])
    ensures Strip(a + d + b) == d
  {
    var s := a + d + b;
    assert s == a + (d + b);
    assert (d + b)[0] == d[0];
    LeadingSpaceBefore(a, d + b);
    var t := s[|a|..];
    assert t == d + b;
    TrailingSpaceAfter(d, b);
    assert t[..|t| - |b|] == d;
  }

  /** Index of the first occurrence of `c` in `s`. */
  function IndexOf(s: string, c: char): (i: nat)
    requires c in s
    ensures i < |s| && s[i] == c
    ensures c !in s[..i]
  {
    if s[0] == c then 0
    else
      var i := 1 + IndexOf(s[1..], c);
      assert s[..i] == [s[0]] + s[1..][..i - 1];
      i
  }

  /** The first occurrence of `c` in `p + [c] + rest` is the one right after `p` when `p` has none. */
  lemma IndexOfAfter(p: string, c: char, rest: string)
    requires c !in p
    ensures c in p + [c] + rest
    ensures IndexOf(p + [c] + rest, c) == |p|
  {
    var s := p + [c] + rest;
    assert s[|p|] == c;
    assert s[..|p|] == p;
    var i := IndexOf(s, c);
  }

  /**
   * Python's `s.split(c, 1)` on text that contains `c`: the part before the first `c` and
   * the part after it.
   */
  function Partition(s: string, c: char): (parts: (string, string))
    requires c in s
    ensures c !in parts.0
    ensures parts.0 + [c] + parts.1 == s
  {
    var i := IndexOf(s, c);
    assert s == s[..i] + [c] + s[i + 1..];
    (s[..i], s[i + 1..])
  }

  /** Partitioning `k + [c] + v` at `c` gives back `k` and `v` whenever `k` has no `c`. */
  lemma {:induction false} PartitionOfJoined(k: string, c: char, v: string)
    requires c !in k
    ensures c in k + [c] + v
    ensures Partition(k + [c] + v, c) == (k, v)
  {
    IndexOfAfter(k, c, v);
    var s := k + [c] + v;
    assert s[..|k|] == k;
    assert s[|k| + 1..] == v;
  }

  /** Python's `s.split(c)`: the maximal pieces between occurrences of `c`; never empty. */
  function Split(s: string, c: char): (parts: seq<string>)
    ensures |parts| > 0
    ensures forall i :: 0 <= i < |parts| ==> c !in parts[i]
    decreases |s|
  {
    if c in s then
      var i := IndexOf(s, c);
      [s[..i]] + Split(s[i + 1..], c)
    else [s]
  }

  /** Python's `c.join(parts)`. */
  function Join(parts: seq<string>, c: char): (s: string)
  {
    if |parts| == 0 then ""
    else if |parts| == 1 then parts[0]
    else parts[0] + [c] + Join(parts[1..], c)
  }

  /** Joining the pieces of a split restores the text: splitting loses nothing. */
  lemma {:induction false} JoinSplit(s: string, c: char)
    ensures Join(Split(s, c), c) == s
    decreases |s|
  {
    if c in s {
      var i := IndexOf(s, c);
      var rest := s[i + 1..];
      JoinSplit(rest, c);
      var parts := Split(s, c);
      assert parts == [s[..i]] + Split(rest, c);
      assert parts[1..] == Split(rest, c);
      assert s == s[..i] + [c] + rest;
    }
  }

  /** Splitting the join of separator-free pieces gives the pieces back. */
  lemma {:induction false} SplitJoin(parts: seq<string>, c: char)
    requires |parts| > 0
    requires forall i :: 0 <= i < |parts| ==> c !in parts[i]
    ensures Split(Join(parts, c), c) == parts
  {
    if |parts| > 1 {
      var rest := Join(parts[1..], c);
      var s := parts[0] + [c] + rest;
      assert Join(parts, c) == s;
      IndexOfAfter(parts[0], c, rest);
      assert s[..|parts[0]|] == parts[0];
      assert s[|parts[0]| + 1..] == rest;
      assert Split(s, c) == [parts[0]] + Split(rest, c);
      assert forall i :: 0 <= i < |parts[1..]| ==> c !in parts[1..][i];
      SplitJoin(parts[1..], c);
      assert parts == [parts[0]] + parts[1..];
    }
  }

  /** The joined text starts with the first piece and ends with the last one. */
  lemma {:induction false} JoinEnds(parts: seq<string>, c: char)
    requires |parts| > 0
    requires forall i :: 0 <= i < |parts| ==> |parts[i]| > 0
    ensures |Join(parts, c)| > 0
    ensures Join(parts, c)[0] == parts[0][0]
    ensures Join(parts, c)[|Join(parts, c)| - 1] == parts[|parts| - 1][|parts[|parts| - 1]| - 1]
  {
    if |parts| > 1 {
      JoinEnds(parts[1..], c);
    }
  }

  /** `t` occurs in `s` starting at index `i`. */
  ghost predicate OccursAt(s: string, t: string, i: int) {
    0 <= i && i + |t| <= |s| && s[i..i + |t|] == t
  }

  /** Python's `t in s` on strings: scans `s` for a prefix equal to `t`. */
  predicate Contains(s: string, t: string)
    decreases |s|
  {
    if |t| > |s| then false
    else t <= s || (|s| > 0 && Contains(s[1..], t))
  }

  /** An occurrence in the tail is an occurrence one position later in the whole. */
  lemma OccursShift(s: string, t: string, i: nat)
    requires |s| > 0
    ensures OccursAt(s[1..], t, i) <==> OccursAt(s, t, i + 1)
  {
    if i + 1 + |t| <= |s| {
      assert s[1..][i..i + |t|] == s[i + 1..i + 1 + |t|];
    }
  }

  /** The scan finds `t` exactly when `t` occurs somewhere in `s`. */
  lemma {:induction false} ContainsIff(s: string, t: string)
    ensures Contains(s, t) <==> exists i :: OccursAt(s, t, i)
    decreases |s|
  {
    if |t| <= |s| {
      assert OccursAt(s, t, 0) <==> t <= s;
      if !(t <= s) && |s| > 0 {
        ContainsIff(s[1..], t);
        forall i: nat | OccursAt(s[1..], t, i)
          ensures OccursAt(s, t, i + 1)
        {
          OccursShift(s, t, i);
        }
        forall i | 0 < i && OccursAt(s, t, i)
          ensures OccursAt(s[1..], t, i - 1)
        {
          OccursShift(s, t, i - 1);
        }
      }
    } else {
      if i :| OccursAt(s, t, i) {
        assert false;
      }
    }
  }

  function DigitChar(d: nat): (c: char)
    requires d < 10
    ensures '0' <= c <= '9'
  {
    ['0', '1', '2', '3', '4', '5', '6', '7', '8', '9'][d]
  }

  predicate IsDigits(s: string) {
    |s| > 0 && forall i :: 0 <= i < |s| ==> '0' <= s[i] <= '9'
  }

  /** The value of a string of ASCII decimal digits. */
  function DecimalValue(s: string): (n: nat)
    requires forall i :: 0 <= i < |s| ==> '0' <= s[i] <= '9'
  {
    if |s| == 0 then 0
    else DecimalValue(s[..|s| - 1]) * 10 + (s[|s| - 1] as int - '0' as int)
  }

  /** Python's `str(n)` for a non-negative integer. */
  function DecimalText(n: nat): (s: string)
    ensures IsDigits(s)
    ensures n < 10 ==> |s| == 1
  {
    if n < 10 then [DigitChar(n)]
    else DecimalText(n / 10) + [DigitChar(n % 10)]
  }

  /** Reading back the rendering of a number gives the number. */
  lemma {:induction false} DecimalRoundTrip(n: nat)
    ensures DecimalValue(DecimalText(n)) == n
  {
    if n < 10 {
      assert DecimalText(n)[..0] == [];
    } else {
      var s := DecimalText(n);
      assert s[..|s| - 1] == DecimalText(n / 10);
      DecimalRoundTrip(n / 10);
    }
  }
}
